=== FILE: README.md ===
# CS Job Search Alerts — the pure core, in Dafny

The program reads Google Alert emails, extracts job links written as
`"<anchor text> — <href>"`, and removes duplicates. It drops every link whose
URL key is already in a JSON "seen" store. The remaining links go to a
language model, which returns a digest: for each job, a JOB block
(`JOB: <title> at <company> — <location>`, a `Links:` line and `- <url>`
lines) and a detail block holding `JOB SUMMARY:` and `TAILORED RESUME:`. The
blocks are separated by a rule of forty `=` characters. The digest is parsed
into job records, and the URL keys of the processed links are added to the
store. A small web app lets the user download a tailored resume as a PDF whose
filename is built from the record.

This project models the deterministic string and set logic of that flow:

- `LinkKey`: `url_from_link`, the key of a link in the store.
- `DigestParser`: `parse_digest`, including its quirks. The block after a JOB
  block is always consumed as its detail block. The `links:` test is a
  `startswith`. Labels are found by presence without the colon, but their
  positions are found with it, so Python's `-1` slices can occur. A title-case
  `Job:` header raises from the two-name unpack, but only when its first line
  holds `" — "` and the text before the last `" — "` holds `" at "`
  (`HeaderErrIff`). Without the dash all three header fields stay empty;
  without the `" at "` only the location is set.
- `SeenStore`: the order-preserving `list(dict.fromkeys(...))`, the
  unseen-link filter, and marking keys as seen.
- `Pipeline`: `run_pipeline` and the command-line `__main__`. The store
  writes, the email and the exits are observable values.
- `Download`: `sanitize_filename`, the download filename, the 400 reply for a
  request without a resume, and the per-line story of `resume_to_pdf`.
- `PyStr`: the Python `str` operations these rely on (`strip`, `upper`,
  `lower`, `find`, `rfind`, `split`, `split(sep, 1)`, `rsplit(sep, 1)`,
  `join`, slicing, `replace`). Each is stated by positions in its input.
- `DigestRender`: a renderer that writes job records in a layout like the one
  the digest prompt asks for: a JOB block and a detail block per record,
  separated by the rule. It differs from the prompt's template in three ways:
  it writes `links:` in lower case, it has no rule before the first block or
  after the last, and it has no empty block between jobs. The prompt's
  template, repeated, puts such an empty block there. The parser's `links:`
  test ignores case, and the parser skips empty blocks (`SkipBlock`), but
  `RoundTrip` is stated for the renderer's own layout only. The renderer is
  the model's own reference definition, used to prove that the parser reads a
  well-formed digest back exactly. The program has no such function: the
  language model writes the digest.

Strings are `seq<char>`. The seen store is a `set<string>`. A parse that
raises is an `Err(HeaderUnpack(line))` value in a `Result`.

The model follows the code exactly, including these behaviours that a reader
of the digest format might not expect:

- `url_from_link` returns a link without the separator verbatim, untrimmed.
- A `links:` line is recognised by `startswith`, not by equality.
- A header line that passes the case-insensitive `JOB:` test but lacks the
  literal `JOB:` raises instead of giving a partial record when two conditions
  hold: the line contains `" — "`, and the text before its last `" — "`
  contains `" at "`. `Job: Dev — Remote` gives a record with only the location
  set, and `Job: Dev at Acme` gives one with all three header fields empty.
- The detail block is the next raw block after the split. It is taken even
  when it is empty or is itself a JOB block. Empty blocks are skipped only
  when they come up as the current block.

## Model

| member | source | states |
|---|---|---|
| LinkKey.UrlFromLink | job_processor.py:52-55 | With `" — "` present, the key is the trimmed text after its last occurrence; otherwise it is the link itself, untrimmed; a key found after a separator is trimmed and holds no separator (the script's copy at main.py:53-57 is the same code) |
| LinkKey.UrlFromLinkIdempotent | job_processor.py:52-55 | A key fed back as a link gives the same key |
| LinkKey.UrlOfFormattedLink | job_processor.py:52-55 | `text — href` with a whitespace-free href has key `href` whatever the anchor text |
| LinkKey.LastSepOfFormatted | job_processor.py:52-55 | In `text — href` with a whitespace-free href, the separator written after the text is the last one |
| SeenStore.Dedupe | job_processor.py:113 | `list(dict.fromkeys(xs))`: no repeats, the same elements as `xs`, listed in the order of their first occurrences (the script's copy at main.py:132 is the same expression) |
| SeenStore.DedupeInOrder | job_processor.py:113 | The insertion loop of a dict with a key set computes `Dedupe` |
| SeenStore.DedupeOfDistinct | main.py:132 | A list without repeats comes back unchanged |
| SeenStore.DedupeIdempotent | main.py:132 | Deduplicating twice gives the same list as once |
| SeenStore.FirstIndexUnique | job_processor.py:113 | A position holding `x` with no earlier `x` is the first index of `x` |
| SeenStore.FilterNew | job_processor.py:258 | The new links are exactly the links whose key is not in the store, and no more than the input |
| SeenStore.FilterNewAppend | main.py:234 | The filter distributes over concatenation, so it keeps the input order |
| SeenStore.SharedUrlBothPass | main.py:234 | Two unseen links with the same href both pass: the filter looks only at the store snapshot |
| SeenStore.BothUnseenPass | main.py:234 | Any two links whose keys are unseen both pass, in order |
| SeenStore.MarkSeen | job_processor.py:267-268 | Adding keys one link at a time gives the store together with the keys of the links |
| SeenStore.KeysCons | main.py:245-246 | The keys of a list are the first link's key and the keys of the rest |
| SeenStore.FilterStep | job_processor.py:253-268 | No links gives "no alerts"; all keys seen gives "no new"; otherwise the new links are the filter's result, non-empty, and the marked store is the store plus their keys |
| SeenStore.FreshMarksEveryLink | job_processor.py:257-269 | After a fresh step the store holds the key of every collected link |
| SeenStore.StepIdempotent | job_processor.py:257-261 | Repeating the step with the marked store finds nothing new |
| SeenStore.ReannouncedLinkIsSeen | job_processor.py:258 | A job announced again under other anchor text is filtered out once its URL is marked |
| DigestParser.FirstLine | job_processor.py:194 | `block.split("\n")[0]`: a prefix of the block without a newline, ending where the block ends or at its first newline |
| DigestParser.ParseHeader | job_processor.py:194-204 | No `" — "` gives three empty fields; an error names the line; otherwise all three fields are trimmed |
| DigestParser.HeaderErrIff | job_processor.py:195-199 | The header parse raises exactly when the text before the last `" — "` contains `" at "`, starts with `JOB:` in any case, and lacks the literal `JOB:` |
| DigestParser.HeaderLocation | job_processor.py:196-197 | The location is the trimmed text after the last `" — "` |
| DigestParser.HeaderSplitsAtLast | job_processor.py:196 | The line is cut at the last `" — "` |
| DigestParser.HeaderBeforeLocation | job_processor.py:198-204 | The left part raises exactly in the crash case; otherwise the location is kept and title and company are trimmed |
| DigestParser.TitleAndCompany | job_processor.py:200-204 | Title and company are the trimmed text before and after the last `" at "`, or both empty without one |
| DigestParser.HeaderTitleCompany | job_processor.py:198-204 | For a header with both separators, title and company come from the last `" at "` after the first `JOB:` |
| DigestParser.HeaderAfterTag | job_processor.py:199-200 | The part examined for `" at "` is the trimmed text after the first `JOB:` |
| DigestParser.HeaderWithoutAt | job_processor.py:201 | Without `" at "` after the tag, only the location is set |
| DigestParser.FormattedHeaderCrashes | job_processor.py:198-199 | Any header of that crash shape, followed by `" — "` and a location, raises |
| DigestParser.CaseMismatchHeaderCrashes | job_processor.py:198-199 | The header `Job: Dev at Acme — <location>` raises |
| DigestParser.TitleCaseTag | job_processor.py:198-199 | `Job: Dev at Acme` contains `" at "`, passes the upper-case test, and lacks `JOB:` |
| DigestParser.DashLink | job_processor.py:213-216 | A line yields at most one link; a yielded link is non-empty, trimmed and contains "http", and only a line whose trimmed text starts with `-` yields one, namely its trimmed remainder |
| DigestParser.DashLinkOnlyWhen | job_processor.py:213-216 | A line yields a link exactly when its trimmed text starts with `-` and the trimmed remainder is non-empty and contains "http" |
| DigestParser.DashLinkWhen | job_processor.py:213-216 | A line starting with `-` whose trimmed remainder contains "http" yields that remainder |
| DigestParser.LinksFrom | job_processor.py:207-216 | Every collected link is non-empty, trimmed and contains "http" |
| DigestParser.LinksLineIsNoLink | job_processor.py:210-212 | A `links:` line is never itself a link |
| DigestParser.LinksModeSticky | job_processor.py:208-216 | Once on, links mode stays on: the links are the dash links of all remaining lines |
| DigestParser.LinksAfterFirstLinksLine | job_processor.py:207-216 | The links of a block are the dash links of the lines after its first `links:` line |
| DigestParser.NoLinksLineNoLinks | job_processor.py:207-216 | A block without a `links:` line has no links |
| DigestParser.ParseDetail | job_processor.py:219-236 | Summary and resume are always trimmed |
| DigestParser.DetailBothLabels | job_processor.py:222-230 | With both labels, the summary is the trimmed text between them and the resume the trimmed text after the second |
| DigestParser.LabelPositions | job_processor.py:223-226 | The label presence tests pass, `find` returns the first `JOB SUMMARY:`, and the search from there returns the next `TAILORED RESUME:` |
| DigestParser.LabelsDisjoint | job_processor.py:226-227 | `TAILORED RESUME:` found at or after `JOB SUMMARY:` starts after that label ends |
| DigestParser.DetailSummaryOnly | job_processor.py:231-232 | With only the summary label, the summary is the trimmed text after it and the resume is empty |
| DigestParser.DetailResumeOnly | job_processor.py:233-236 | With only the resume label, the resume is the trimmed text after the first newline, or empty without one, and the summary is empty |
| DigestParser.DetailNoLabel | job_processor.py:222-236 | With neither label both fields are empty |
| DigestParser.DetailColonlessSummary | job_processor.py:223-228 | Labels without the summary colon make `find` return -1, so the fields are `d[11:-1]` and `d[15:]`, trimmed |
| DigestParser.DetailResumeLabelMissing | job_processor.py:223-230 | With the summary label at `idx`, the resume words present but no `TAILORED RESUME:` at or after `idx`, the second `find` returns -1, so the fields are `d[idx+12:-1]` and `d[15:]`, trimmed |
| DigestParser.DetailColonlessSummaryOnly | job_processor.py:222-232 | "JOB SUMMARY" without its colon and no resume words: `find` returns -1, so the summary is `d[11:]`, trimmed, and the resume is empty |
| DigestParser.RecordOf | job_processor.py:191-239 | A record built from a header, a block and a detail has every field trimmed and every link a trimmed "http" text |
| DigestParser.ParseBlocks | job_processor.py:184-240 | Every record of a successful parse is clean |
| DigestParser.SkipBlock | job_processor.py:185-188 | An empty or non-JOB block yields nothing |
| DigestParser.JobBlockPair | job_processor.py:219-240 | A JOB block and the next raw block yield one record, and parsing resumes after both |
| DigestParser.AdjacentJobBlocks | job_processor.py:219-237 | A JOB block directly after a JOB block is consumed as its detail: two adjacent JOB blocks give one record |
| DigestParser.LastJobBlock | job_processor.py:219 | A JOB block at the end yields one record with empty summary and resume |
| DigestParser.LastJobBlockAt | job_processor.py:219-240 | The same at any final position of a block list |
| DigestParser.CrashingBlock | job_processor.py:198-199 | A JOB block whose header raises makes the whole parse raise with that line |
| DigestParser.ErrorFromCrashingHeader | job_processor.py:190-199 | A parse that raises names the first line of some JOB block whose header crashes |
| DigestParser.NoJobBlocks | job_processor.py:184-190 | Without JOB blocks the result is the empty list |
| DigestParser.ParseBlocksAppend | job_processor.py:184-240 | Parsing block lists that meet at a record boundary concatenates the results, in input order |
| DigestParser.ParseDigest | job_processor.py:178-242 | Every record of a successful parse is clean |
| DigestParser.ParseDigestLoop | job_processor.py:178-242 | The `while` loop with its index computes the same result as the recursive parse |
| DigestParser.TurnAdvances | job_processor.py:184-240 | Each turn of the loop advances the index and accounts for exactly the records of the blocks it passes |
| DigestRender.HeaderRoundTrip | job_processor.py:194-204 | The header line of a well-formed record parses back to its title, company and location |
| DigestRender.JobBlockLinks | job_processor.py:207-216 | The links collected from a rendered JOB block are the record's links, in order |
| DigestRender.LinksOfLinkLines | job_processor.py:213-216 | In links mode, `- <url>` lines give back their URLs in order |
| DigestRender.JobBlockShape | job_processor.py:185-194 | A rendered JOB block is trimmed, passes the JOB test, and its first line is the header line |
| DigestRender.DetailRoundTrip | job_processor.py:219-230 | A rendered detail block parses back to the record's summary and resume |
| DigestRender.DetailOfHead | job_processor.py:222-230 | The two labels, the summary and the resume text parse back to that summary and resume |
| DigestRender.PairRoundTrip | job_processor.py:184-240 | A rendered record's two blocks yield that record, and parsing continues after them |
| DigestRender.SplitRender | job_processor.py:181 | Splitting a rendered digest on the rule gives its blocks back |
| DigestRender.PiecesRoundTrip | job_processor.py:184-240 | The rendered blocks of well-formed records parse to those records |
| DigestRender.RoundTrip | job_processor.py:178-242 | `parse_digest` of a rendered digest of well-formed records returns exactly those records |
| DigestRender.EmptyDigest | job_processor.py:178-242 | The digest of no records parses to the empty list |
| Pipeline.RunPipeline | job_processor.py:245-271 | The store is written exactly when setup succeeds, the resume exists, some collected link is unseen, the generator returns and the parse succeeds; it is then the store plus all collected keys, and the run returns the digest and its records; the generator's exception propagates exactly when it is reached and raises, and then nothing is written; every error return has no digest, no jobs and no write |
| Pipeline.PipelineEarlyExits | job_processor.py:247-261 | Setup failure, missing resume, no links and all-seen each return their message without writing the store |
| Pipeline.PipelineRaisesWithoutSaving | job_processor.py:264-269 | A parse that raises propagates and the store is not written |
| Pipeline.PipelineRerunFindsNothing | job_processor.py:257-261 | Running again with the written store returns "No new jobs (all already seen)." |
| Pipeline.DedupeKeys | job_processor.py:113 | Deduplication does not change the set of URL keys |
| Pipeline.RunMain | main.py:219-249 | The store is saved exactly when the resume exists, some link is unseen and the generator returns; an email is sent exactly when the store is saved; the script crashes exactly when the generator is reached and raises; it exits exactly when it neither saves nor crashes, so an exit sends no email; it exits with status 1 exactly when the resume is missing; the saved store is the store plus all collected keys, saved right after the digest is emailed |
| Pipeline.Stop | main.py:225-238 | Printing a message and exiting sends no email and saves nothing |
| Pipeline.Abort | main.py:240-241 | A raising generator ends the script with no email, no save and no exit call |
| Pipeline.Deliver | main.py:243-249 | Email, then save, then the success line: no exit |
| Pipeline.MainMissingResume | main.py:222-226 | A missing resume prints the error and exits with status 1 before anything else |
| Pipeline.MainGeneratorRaises | main.py:240-243 | When the generator raises, the whole trace is the crash: nothing is sent or saved |
| Pipeline.MainRerunSkipsEmail | main.py:233-238 | Running again with the saved store prints the skip message and exits: no email, no save |
| Pipeline.EntryPointsAgree | main.py:245-247 | The script saves the same store as `run_pipeline` for the same inputs |
| Download.RemoveForbidden | app.py:17 | The regex deletion leaves no forbidden character, keeps every other character, and leaves a clean name unchanged |
| Download.RemoveForbiddenConcat | app.py:17 | The deletion works character by character, so it distributes over concatenation |
| Download.SanitizeFilename | app.py:15-17 | The result is non-empty, has no forbidden character and no surrounding whitespace; it is "resume" when nothing else is left, otherwise exactly the trimmed text of the permitted characters, which `RemoveForbidden` keeps in order; a clean name is returned unchanged |
| Download.SanitizeIdempotent | app.py:15-17 | Sanitizing twice gives the same name as once |
| Download.StripChars | app.py:17 | Trimming only removes characters |
| Download.NameParts | app.py:74-80 | One non-empty part per present field; the title comes first when present, `"at " + company` follows the title's part when present, and `"— " + location` comes last when present |
| Download.BaseName | app.py:81 | The base name is never empty and is "resume" when all fields are empty |
| Download.BaseNameCases | app.py:74-81 | The remaining five combinations: company only gives `at Company`, location only `— Location`, title and company `Title at Company`, title and location `Title — Location`, company and location `at Company — Location` |
| Download.BaseNameAll | app.py:74-81 | With all three fields the base name is `Title at Company — Location` |
| Download.BaseNameTitleOnly | app.py:74-81 | With only a title the base name is the title |
| Download.DownloadName | app.py:82 | The filename ends in " resume.pdf", the part before is the sanitized base name, and no character is forbidden |
| Download.DownloadResume | app.py:62-84 | A missing body or a body without "resume" gives a 400 reply with "Missing resume content"; otherwise the filename is built from title, company and location, missing keys read as empty, and the story is the resume's story |
| Download.DownloadShape | app.py:62-84 | A successful reply's filename ends in " resume.pdf" and its story has one item per line of the resume |
| Download.Escape | app.py:44 | The two `replace` passes equal the one-pass character escape, leave no raw `<`, and are undone by markup decoding |
| Download.TwoPassEscape | app.py:44 | Replacing `&` first and then `<` is the one-pass escape: the `&` of `&lt;` is not escaped again |
| Download.UnescapeEscape | app.py:44 | Decoding the escape gives the text back |
| Download.StoryItemOf | app.py:40-44 | A line is a spacer exactly when it is blank after trimming; a paragraph is the one-pass escape of the trimmed line (`&` to `&amp;`, `<` to `&lt;`), so it holds no raw `<` and decodes to the trimmed line |
| Download.StoryOf | app.py:39-44 | One story item per line, each the item of that line |
| Download.ResumeStory | app.py:39-44 | The story has one item per line of `split("\n")`, in order |
| Download.StoryLoop | app.py:38-44 | The append loop builds the same story |
| PyStr.Strip | job_processor.py:54 | `strip()`: the result is trimmed, and is the input with a whitespace prefix and a whitespace suffix removed |
| PyStr.StripIdempotent | job_processor.py:54 | Trimming twice is trimming once |
| PyStr.StripEmptyIff | job_processor.py:186 | A text trims to empty exactly when it is all whitespace |
| PyStr.Upper | job_processor.py:221 | `upper()` on ASCII letters: same length, each character mapped |
| PyStr.Find | job_processor.py:223 | `find`: -1 exactly when there is no occurrence, otherwise the first occurrence |
| PyStr.RFind | job_processor.py:196 | `rfind`: -1 exactly when absent, otherwise the last occurrence |
| PyStr.FindFrom | job_processor.py:226 | `find(sub, start)`: -1 exactly when there is no occurrence from `start`, otherwise the first one from there |
| PyStr.PySlice | job_processor.py:227 | Python slicing: in-range bounds slice directly, a negative end that does not cross counts from the end (`s[a:-m]` is `s[a..|s|-m]`), bounds that cross give the empty string |
| PyStr.Split | job_processor.py:181 | `split(sep)`: at least one piece, the pieces joined with `sep` give the text back, no piece contains `sep`, and each cut is at the first occurrence after the previous one (no piece but the last, extended by `sep` minus its last character, holds `sep`), which fixes the cuts for a self-overlapping separator such as the rule |
| PyStr.SplitOfJoin | job_processor.py:181 | Splitting a join of pieces that cannot create an early separator gives the pieces back |
| PyStr.SplitOnce | job_processor.py:234 | `split(sep, 1)`: one piece without `sep`, otherwise the parts before and after the first occurrence |
| PyStr.RSplitOnce | job_processor.py:196 | `rsplit(sep, 1)`: one piece without `sep`, otherwise the parts before and after the last occurrence |
| PyStr.StripKeepsAbsence | job_processor.py:54 | Trimming never creates an occurrence of a substring |

## Left out

- Gmail authentication, listing, fetching and marking messages read, MIME and base64 decoding: network I/O and OAuth. The links collected from the alerts are a parameter. The listing's `Found N unread messages` print (main.py:70) happens inside that I/O, so the script's modelled trace starts after it.
- HTML anchor extraction with BeautifulSoup: library internals. Links are given as strings in the `text — href` form.
- The OpenAI call and its prompt: an external, nondeterministic service. The generator is a function parameter of the pipeline. It returns the digest, or `None` for a call that raises. Which exception it raises is not modelled.
- Loading and saving the JSON store, including the fallback to an empty set on a broken file: file-system behaviour. The loaded store is a parameter and a write is a value in the result.
- Flask routing, `render_template`, `jsonify`, `send_file`, and reportlab page layout and PDF bytes. The PDF story is modelled as a list of `Spacer | Para(markup)` items.
- The web UI's `fetch_jobs` endpoint, which only forwards the result of `run_pipeline`.
- `get_gmail_service` failing in the script: in the script it is outside the `try`, so its exceptions are not modelled.
- `send_summary_email` failing: the script is modelled as if the email send returns normally.
- Full Unicode case mapping: `upper` and `lower` act on ASCII letters only, so they keep the length and the indices used by the detail slicing stay aligned. `strip` uses the full set of characters Python treats as whitespace.
- Non-string JSON values in the download request: the body is a map from strings to strings.
- PyStr.PyFind: states only that a found index is an occurrence at or after the start. The detail lemmas use `LabelPositions` to pin down its result.
- DigestRender: the renderer exists only in the model. Its `WellFormed` condition lists what a record needs in order to survive the round trip. It needs one-line, trimmed, non-empty title, company and location. The title's `" at "` must be the last one. The location holds no EM DASH. Each link is a one-line, trimmed text containing "http". The summary holds no `TAILORED RESUME:`. Neither block contains the rule.

=== FILE: digest_parser.dfy ===
/**
 `parse_digest`: the language-model digest is cut on a rule of forty `=` into
 raw blocks. Each JOB block that the scan reaches yields one record; the raw
 block right after it is always consumed as that record's detail block, whatever
 it holds. `ParseBlocks` is the scan written as a fold over the block list and
 `ParseDigestLoop` is the index loop of the program; they agree.
 */
module DigestParser {
  import opened Wrappers
  import opened PyStr
  import LinkKey

  /** The block separator: forty `=`. */
  const Rule: string := "========================================"
  const JobTag: string := "JOB:"
  const At: string := " at "
  const LinksTag: string := "links:"
  const SummaryWord: string := "JOB SUMMARY"
  const SummaryLabel: string := "JOB SUMMARY:"
  const ResumeWord: string := "TAILORED RESUME"
  const ResumeLabel: string := "TAILORED RESUME:"

  /** One parsed job: the dict with keys title, company, location, links, summary, resume. */
  datatype JobRecord = JobRecord(
    title: string, company: string, location: string,
    links: seq<string>, summary: string, resume: string)

  /** The three fields read from a `JOB: <title> at <company> \U{2014} <location>` line. */
  datatype Header = Header(title: string, company: string, location: string)

  /** The two fields read from a detail block. */
  datatype Detail = Detail(summary: string, resume: string)

  /** The `ValueError` raised by `_, rest = before_loc.split("JOB:", 1)` when the split yields one piece. */
  datatype ParseError = HeaderUnpack(line: string)

  /** Every text field is trimmed and every link is a trimmed, non-empty text mentioning "http". */
  ghost predicate CleanRecord(j: JobRecord) {
    && IsStripped(j.title) && IsStripped(j.company) && IsStripped(j.location)
    && IsStripped(j.summary) && IsStripped(j.resume)
    && forall l :: l in j.links ==> l != [] && IsStripped(l) && Contains(l, "http")
  }

  /** A stripped block is a JOB block when its upper-cased text starts with `JOB:`. */
  predicate IsJobBlock(b: string) {
    StartsWith(Upper(b), JobTag)
  }

  /** `block.split("\n")`. */
  function Lines(b: string): seq<string> {
    Split(b, "\n")
  }

  /** `block.split("\n")[0]`: the text up to the first newline. */
  function FirstLine(b: string): (r: string)
    ensures !Contains(r, "\n")
    ensures StartsWith(b, r)
    ensures r == b || (|r| < |b| && b[|r|] == '\n')
  {
    var ls := Split(b, "\n");
    if |ls| == 1 then
      assert Join(ls, "\n") == ls[0];
      ls[0]
    else
      assert b == ls[0] + "\n" + Join(ls[1..], "\n");
      assert b[..|ls[0]|] == ls[0];
      ls[0]
  }

  // ---------------------------------------------------------------------
  // Header line
  // ---------------------------------------------------------------------

  /**
   The header raises exactly when, left of the last " \U{2014} ", there is an " at " and
   the text starts with `JOB:` in upper case but the literal, case-sensitive
   `JOB:` does not occur there (for instance `Job: X at Y \U{2014} Z`).
   */
  ghost predicate HeaderCrashes(line: string) {
    exists k :: IsLastOccurrence(line, LinkKey.Sep, k)
      && Contains(line[..k], At) && StartsWith(Upper(line[..k]), JobTag)
      && !Contains(line[..k], JobTag)
  }

  /**
   Lines 194-204 of the parser. Without " \U{2014} " nothing is read. With it, the
   location is the trimmed text after its last occurrence; title and company come
   from the last " at " after the literal `JOB:` tag.
   */
  function ParseHeader(line: string): (r: Result<Header, ParseError>)
    ensures !Contains(line, LinkKey.Sep) ==> r == Ok(Header("", "", ""))
    ensures r.Err? ==> r.error == HeaderUnpack(line)
    ensures r.Ok? ==> IsStripped(r.value.title) && IsStripped(r.value.company) && IsStripped(r.value.location)
  {
    if !Contains(line, LinkKey.Sep) then Ok(Header("", "", ""))
    else
      var parts := RSplitOnce(line, LinkKey.Sep);
      HeaderBeforeLocation(line, parts[0], Strip(parts[1]))
  }

  /** The location is the trimmed text after the last " \U{2014} ". */
  lemma HeaderLocation(line: string, k: int)
    requires IsLastOccurrence(line, LinkKey.Sep, k)
    requires ParseHeader(line).Ok?
    ensures ParseHeader(line).value.location == Strip(line[k + |LinkKey.Sep|..])
  {
    HeaderSplitsAtLast(line, k);
  }

  /** The header line raises exactly in the case `HeaderCrashes` describes. */
  lemma HeaderErrIff(line: string)
    ensures ParseHeader(line).Err? <==> HeaderCrashes(line)
  {
    if Contains(line, LinkKey.Sep) {
      var k := RFind(line, LinkKey.Sep);
      assert forall k' :: IsLastOccurrence(line, LinkKey.Sep, k') ==> k' == k by {
        forall k' | IsLastOccurrence(line, LinkKey.Sep, k') ensures k' == k {
          LastOccurrenceUnique(line, LinkKey.Sep, k, k');
        }
      }
    }
  }

  /** The part of the header left of the location: `before` is the text before the last " \U{2014} ". */
  function HeaderBeforeLocation(line: string, before: string, location: string): (r: Result<Header, ParseError>)
    requires IsStripped(location)
    ensures r.Err? <==> Contains(before, At) && StartsWith(Upper(before), JobTag) && !Contains(before, JobTag)
    ensures r.Err? ==> r.error == HeaderUnpack(line)
    ensures r.Ok? ==> r.value.location == location
    ensures r.Ok? ==> IsStripped(r.value.title) && IsStripped(r.value.company)
  {
    if Contains(before, At) && StartsWith(Upper(before), JobTag) then
      var pieces := SplitOnce(before, JobTag);
      if |pieces| != 2 then Err(HeaderUnpack(line))
      else TitleAndCompany(Strip(pieces[1]), location)
    else Ok(Header("", "", location))
  }

  /** Title and company from the trimmed text after the tag, split at its last " at ". */
  function TitleAndCompany(rest: string, location: string): (r: Result<Header, ParseError>)
    ensures r.Ok? && r.value.location == location
    ensures !Contains(rest, At) ==> r.value.title == [] && r.value.company == []
    ensures forall m :: IsLastOccurrence(rest, At, m) ==>
      r.value.title == Strip(rest[..m]) && r.value.company == Strip(rest[m + |At|..])
    ensures IsStripped(r.value.title) && IsStripped(r.value.company)
  {
    if Contains(rest, At) then
      var halves := RSplitOnce(rest, At);
      Ok(Header(Strip(halves[0]), Strip(halves[1]), location))
    else Ok(Header("", "", location))
  }

  /**
   With " \U{2014} " at `k` (last), the literal tag first at `j` left of it, and the last
   " at " of the trimmed remainder at `m`: title and company are the trimmed
   texts on either side of that " at ".
   */
  lemma HeaderTitleCompany(line: string, k: int, j: int, m: int)
    requires IsLastOccurrence(line, LinkKey.Sep, k)
    requires StartsWith(Upper(line[..k]), JobTag)
    requires IsFirstOccurrence(line[..k], JobTag, j)
    requires IsLastOccurrence(Strip(line[..k][j + |JobTag|..]), At, m)
    ensures var rest := Strip(line[..k][j + |JobTag|..]);
      ParseHeader(line) == Ok(Header(Strip(rest[..m]), Strip(rest[m + |At|..]), Strip(line[k + |LinkKey.Sep|..])))
  {
    var before := line[..k];
    var rest := Strip(before[j + |JobTag|..]);
    HeaderSplitsAtLast(line, k);
    AtBeforeLocation(before, j, m);
    HeaderAfterTag(line, before, Strip(line[k + |LinkKey.Sep|..]), j);
  }

  /** With " \U{2014} " present the header is read from the two sides of its last occurrence. */
  lemma HeaderSplitsAtLast(line: string, k: int)
    requires IsLastOccurrence(line, LinkKey.Sep, k)
    ensures ParseHeader(line) == HeaderBeforeLocation(line, line[..k], Strip(line[k + |LinkKey.Sep|..]))
  {
    assert Contains(line, LinkKey.Sep);
  }

  /** An " at " in the trimmed text after the tag is an " at " of the text before the location. */
  lemma AtBeforeLocation(before: string, j: int, m: int)
    requires 0 <= j && j + |JobTag| <= |before|
    requires OccursAt(Strip(before[j + |JobTag|..]), At, m)
    ensures Contains(before, At)
  {
    OccursInStrippedTail(before, j + |JobTag|, At, m);
  }

  /** When the tag is found at `j`, title and company come from the trimmed text after it. */
  lemma HeaderAfterTag(line: string, before: string, location: string, j: int)
    requires IsStripped(location)
    requires StartsWith(Upper(before), JobTag) && Contains(before, At)
    requires IsFirstOccurrence(before, JobTag, j)
    ensures HeaderBeforeLocation(line, before, location) == TitleAndCompany(Strip(before[j + |JobTag|..]), location)
  {
    assert Contains(before, JobTag);
  }

  /** When no " at " follows the tag, title and company stay empty. */
  lemma HeaderWithoutAt(line: string, k: int, j: int)
    requires IsLastOccurrence(line, LinkKey.Sep, k)
    requires IsFirstOccurrence(line[..k], JobTag, j)
    requires !Contains(Strip(line[..k][j + |JobTag|..]), At)
    ensures ParseHeader(line) == Ok(Header("", "", Strip(line[k + |LinkKey.Sep|..])))
  {
    assert Contains(line, LinkKey.Sep);
    assert Contains(line[..k], JobTag);
  }

  // ---------------------------------------------------------------------
  // Links
  // ---------------------------------------------------------------------

  /** A line that switches links mode on: its stripped, lower-cased text starts with `links:`. */
  predicate IsLinksLine(line: string) {
    StartsWith(Lower(Strip(line)), LinksTag)
  }

  /** The link a line contributes in links mode: `- <link>` with a non-empty link mentioning "http". */
  function DashLink(line: string): (r: seq<string>)
    ensures |r| <= 1
    ensures forall l :: l in r ==> l != [] && IsStripped(l) && Contains(l, "http")
    ensures r != [] ==> StartsWith(Strip(line), "-") && r == [Strip(Strip(line)[1..])]
  {
    var t := Strip(line);
    if StartsWith(t, "-") then
      var link := Strip(t[1..]);
      if link != [] && Contains(link, "http") then [link] else []
    else []
  }

  /** A dash line whose trimmed remainder is a non-empty text with "http" yields exactly that text. */
  lemma DashLinkWhen(line: string, link: string)
    requires StartsWith(Strip(line), "-") && Strip(Strip(line)[1..]) == link
    requires link != [] && Contains(link, "http")
    ensures DashLink(line) == [link]
  {
  }

  /**
   A line yields a link exactly when its trimmed text starts with `-` and the
   trimmed remainder is a non-empty text mentioning "http".
   */
  lemma DashLinkOnlyWhen(line: string)
    ensures DashLink(line) != [] <==>
      StartsWith(Strip(line), "-") && Strip(Strip(line)[1..]) != [] && Contains(Strip(Strip(line)[1..]), "http")
  {
  }

  /** The links of a run of lines read in links mode, in order. */
  function DashLinks(lines: seq<string>): seq<string>
    decreases |lines|
  {
    if |lines| == 0 then [] else DashLink(lines[0]) + DashLinks(lines[1..])
  }

  /** Lines 207-216: scan every line with the sticky `in_links` flag. */
  function LinksFrom(lines: seq<string>, inLinks: bool): (r: seq<string>)
    ensures forall l :: l in r ==> l != [] && IsStripped(l) && Contains(l, "http")
    decreases |lines|
  {
    if |lines| == 0 then []
    else if IsLinksLine(lines[0]) then LinksFrom(lines[1..], true)
    else if inLinks then DashLink(lines[0]) + LinksFrom(lines[1..], inLinks)
    else LinksFrom(lines[1..], inLinks)
  }

  /** In links mode a line other than a `links:` line contributes its dash link. */
  lemma LinksFromLinkMode(lines: seq<string>)
    requires |lines| > 0 && !IsLinksLine(lines[0])
    ensures LinksFrom(lines, true) == DashLink(lines[0]) + LinksFrom(lines[1..], true)
  {
  }

  /** Outside links mode a line other than a `links:` line contributes nothing. */
  lemma LinksFromSkip(lines: seq<string>)
    requires |lines| > 0 && !IsLinksLine(lines[0])
    ensures LinksFrom(lines, false) == LinksFrom(lines[1..], false)
  {
  }

  /** A `links:` line switches links mode on and contributes nothing itself. */
  lemma LinksFromSwitch(lines: seq<string>, inLinks: bool)
    requires |lines| > 0 && IsLinksLine(lines[0])
    ensures LinksFrom(lines, inLinks) == LinksFrom(lines[1..], true)
  {
  }

  /** The links of a JOB block, starting outside links mode. */
  function CollectLinks(lines: seq<string>): seq<string> {
    LinksFrom(lines, false)
  }

  /** A line that switches links mode on is never itself a link line. */
  lemma LinksLineIsNoLink(line: string)
    requires IsLinksLine(line)
    ensures DashLink(line) == []
  {
    var t := Strip(line);
    var lo := Lower(t);
    assert lo[..|LinksTag|] == LinksTag;
    assert lo[0] == lo[..|LinksTag|][0] == 'l';
    assert t[0] != '-';
    assert t[..1] != "-";
  }

  /** Once links mode is on it never turns off: every later dash line counts. */
  lemma {:induction false} LinksModeSticky(lines: seq<string>)
    ensures LinksFrom(lines, true) == DashLinks(lines)
    decreases |lines|
  {
    if |lines| > 0 {
      LinksModeSticky(lines[1..]);
      if IsLinksLine(lines[0]) {
        LinksLineIsNoLink(lines[0]);
      }
    }
  }

  /** The links of a block are the dash-line links after its first links line, in order. */
  lemma {:induction false} LinksAfterFirstLinksLine(lines: seq<string>, f: nat)
    requires f < |lines| && IsLinksLine(lines[f])
    requires forall i :: 0 <= i < f ==> !IsLinksLine(lines[i])
    ensures CollectLinks(lines) == DashLinks(lines[f + 1..])
    decreases f
  {
    if f == 0 {
      LinksModeSticky(lines[1..]);
    } else {
      assert !IsLinksLine(lines[0]);
      assert lines[1..][f - 1..] == lines[f..];
      LinksAfterFirstLinksLine(lines[1..], f - 1);
      assert lines[1..][f..] == lines[f + 1..];
    }
  }

  /** Without a links line a block has no links, whatever dash lines it holds. */
  lemma {:induction false} NoLinksLineNoLinks(lines: seq<string>)
    requires forall i :: 0 <= i < |lines| ==> !IsLinksLine(lines[i])
    ensures CollectLinks(lines) == []
    decreases |lines|
  {
    if |lines| > 0 {
      NoLinksLineNoLinks(lines[1..]);
    }
  }

  // ---------------------------------------------------------------------
  // Detail block
  // ---------------------------------------------------------------------

  /**
   Lines 220-236. Label presence is checked without the colon but positions are
   found with it, so `find` may return -1 and the slices then follow Python's
   negative-index rule.
   */
  function ParseDetail(d: string): (r: Detail)
    ensures IsStripped(r.summary) && IsStripped(r.resume)
  {
    var u := Upper(d);
    if Contains(u, SummaryWord) then SummaryDetail(d, u, Find(u, SummaryLabel))
    else if Contains(u, ResumeWord) then Detail("", AfterFirstBreak(d))
    else Detail("", "")
  }

  /** `d.split("\n", 1)`: the trimmed second piece, or empty when there is no newline. */
  function AfterFirstBreak(d: string): (r: string)
    ensures IsStripped(r)
  {
    var parts := SplitOnce(d, "\n");
    if |parts| > 1 then Strip(parts[1]) else ""
  }

  lemma AfterFirstBreakIs(d: string, brk: string)
    requires brk == "\n"
    ensures forall k :: IsFirstOccurrence(d, brk, k) ==> AfterFirstBreak(d) == Strip(d[k + 1..])
    ensures !Contains(d, brk) ==> AfterFirstBreak(d) == []
  {
  }

  /** The summary branch, with `idx` the result of searching `u` for `JOB SUMMARY:`. */
  function SummaryDetail(d: string, u: string, idx: int): (r: Detail)
    ensures IsStripped(r.summary) && IsStripped(r.resume)
  {
    if Contains(u, ResumeWord) then LabelledDetail(d, idx, PyFind(u, ResumeLabel, idx))
    else Detail(Strip(PySliceFrom(d, idx + |SummaryLabel|)), "")
  }

  /** Both labels, searched for at `idx` and `ridx`: the text between them and the text after the second. */
  function LabelledDetail(d: string, idx: int, ridx: int): (r: Detail)
    ensures IsStripped(r.summary) && IsStripped(r.resume)
  {
    Detail(Strip(PySlice(d, idx + |SummaryLabel|, ridx)), Strip(PySliceFrom(d, ridx + |ResumeLabel|)))
  }

  /** The two labels cannot overlap: "JOB SUMMARY:" holds no 'T'. */
  lemma LabelsDisjoint(u: string, idx: int, ridx: int)
    requires OccursAt(u, SummaryLabel, idx) && OccursAt(u, ResumeLabel, ridx) && idx <= ridx
    ensures idx + |SummaryLabel| <= ridx
  {
    assert u[ridx] == 'T' by {
      assert u[ridx..ridx + |ResumeLabel|][0] == u[ridx];
    }
    forall p | idx <= p < idx + |SummaryLabel| ensures u[p] != 'T' {
      assert u[idx..idx + |SummaryLabel|][p - idx] == u[p];
    }
  }

  /**
   Both labels present: the summary is the trimmed text between the end of the
   first `JOB SUMMARY:` and the first `TAILORED RESUME:` at or after it; the
   resume is the trimmed text after that label.
   */
  lemma DetailBothLabels(d: string, idx: int, ridx: int)
    requires IsFirstOccurrence(Upper(d), SummaryLabel, idx)
    requires OccursAt(Upper(d), ResumeLabel, ridx) && idx <= ridx
    requires forall p :: idx <= p < ridx ==> !OccursAt(Upper(d), ResumeLabel, p)
    ensures idx + |SummaryLabel| <= ridx
    ensures ParseDetail(d) == Detail(Strip(d[idx + |SummaryLabel|..ridx]), Strip(d[ridx + |ResumeLabel|..]))
  {
    LabelPositions(Upper(d), idx, ridx);
  }

  /** What the detail parser's searches return when the labels sit at `idx` and `ridx`. */
  lemma LabelPositions(u: string, idx: int, ridx: int)
    requires IsFirstOccurrence(u, SummaryLabel, idx)
    requires OccursAt(u, ResumeLabel, ridx) && idx <= ridx
    requires forall p :: idx <= p < ridx ==> !OccursAt(u, ResumeLabel, p)
    ensures idx + |SummaryLabel| <= ridx
    ensures Contains(u, SummaryWord) && Contains(u, ResumeWord)
    ensures Find(u, SummaryLabel) == idx && PyFind(u, ResumeLabel, idx) == ridx
  {
    LabelsDisjoint(u, idx, ridx);
    OccursPrefixOf(u, SummaryLabel, |SummaryWord|, idx);
    assert SummaryLabel[..|SummaryWord|] == SummaryWord;
    OccursPrefixOf(u, ResumeLabel, |ResumeWord|, ridx);
    assert ResumeLabel[..|ResumeWord|] == ResumeWord;
    FindIsFirst(u, SummaryLabel, idx);
    PyFindIsFirstFrom(u, ResumeLabel, idx, ridx);
  }

  /** Only the summary label: the summary is the trimmed text after it and the resume stays empty. */
  lemma DetailSummaryOnly(d: string, idx: int)
    requires IsFirstOccurrence(Upper(d), SummaryLabel, idx)
    requires !Contains(Upper(d), ResumeWord)
    ensures ParseDetail(d) == Detail(Strip(d[idx + |SummaryLabel|..]), "")
  {
    var u := Upper(d);
    OccursPrefixOf(u, SummaryLabel, |SummaryWord|, idx);
    assert SummaryLabel[..|SummaryWord|] == SummaryWord;
    assert Contains(u, SummaryWord);
    FindIsFirst(u, SummaryLabel, idx);
  }

  /**
   Only the resume label: the summary stays empty and the resume is the trimmed
   text after the block's first newline, or empty if there is none; where the
   label sits is not looked at.
   */
  lemma DetailResumeOnly(d: string)
    requires !Contains(Upper(d), SummaryWord) && Contains(Upper(d), ResumeWord)
    ensures ParseDetail(d).summary == []
    ensures forall k :: IsFirstOccurrence(d, "\n", k) ==> ParseDetail(d).resume == Strip(d[k + 1..])
    ensures !Contains(d, "\n") ==> ParseDetail(d).resume == []
  {
    AfterFirstBreakIs(d, "\n");
  }

  /** Neither label: both fields stay empty. */
  lemma DetailNoLabel(d: string)
    requires !Contains(Upper(d), SummaryWord) && !Contains(Upper(d), ResumeWord)
    ensures ParseDetail(d) == Detail("", "")
  {
  }

  /**
   "JOB SUMMARY" and "TAILORED RESUME" present but no `JOB SUMMARY:` with its
   colon: `find` gives -1, so the summary is `d[11:-1]` and the resume `d[15:]`,
   both trimmed.
   */
  lemma DetailColonlessSummary(d: string)
    requires Contains(Upper(d), SummaryWord) && !Contains(Upper(d), SummaryLabel)
    requires Contains(Upper(d), ResumeWord)
    ensures ParseDetail(d) == Detail(Strip(PySlice(d, 11, -1)), Strip(PySliceFrom(d, 15)))
  {
    var u := Upper(d);
    assert |u| >= |SummaryWord|;
    assert PyFind(u, ResumeLabel, -1) == -1;
  }

  /**
   The summary label found at `idx` and the words "TAILORED RESUME" present,
   but no `TAILORED RESUME:` at or after `idx`: the second `find` gives -1, so
   the summary is `d[idx + 12:-1]` and the resume `d[15:]`, both trimmed.
   */
  lemma DetailResumeLabelMissing(d: string, idx: int)
    requires IsFirstOccurrence(Upper(d), SummaryLabel, idx)
    requires Contains(Upper(d), ResumeWord)
    requires forall p :: idx <= p ==> !OccursAt(Upper(d), ResumeLabel, p)
    ensures ParseDetail(d) == Detail(Strip(PySlice(d, idx + |SummaryLabel|, -1)), Strip(PySliceFrom(d, 15)))
  {
    var u := Upper(d);
    OccursPrefixOf(u, SummaryLabel, |SummaryWord|, idx);
    assert SummaryLabel[..|SummaryWord|] == SummaryWord;
    assert Contains(u, SummaryWord);
    FindIsFirst(u, SummaryLabel, idx);
    PyFindAbsentFrom(u, ResumeLabel, idx);
  }

  /**
   "JOB SUMMARY" present without its colon and no "TAILORED RESUME": `find`
   gives -1, so the summary is `d[11:]`, trimmed, and the resume stays empty.
   */
  lemma DetailColonlessSummaryOnly(d: string)
    requires Contains(Upper(d), SummaryWord) && !Contains(Upper(d), SummaryLabel)
    requires !Contains(Upper(d), ResumeWord)
    ensures ParseDetail(d) == Detail(Strip(PySliceFrom(d, 11)), "")
  {
  }

  // ---------------------------------------------------------------------
  // The block scan
  // ---------------------------------------------------------------------

  /** Put one record in front of a parse result; an error stays an error. */
  function Prepend(j: JobRecord, r: Result<seq<JobRecord>, ParseError>): Result<seq<JobRecord>, ParseError> {
    match r
    case Ok(js) => Ok([j] + js)
    case Err(e) => Err(e)
  }

  /** Every record of a list is clean. */
  ghost predicate AllClean(js: seq<JobRecord>) {
    forall i :: 0 <= i < |js| ==> CleanRecord(js[i])
  }

  /** Putting a clean record in front of a clean result keeps it clean. */
  lemma PrependKeepsClean(j: JobRecord, r: Result<seq<JobRecord>, ParseError>)
    requires CleanRecord(j) && (r.Ok? ==> AllClean(r.value))
    ensures Prepend(j, r).Ok? ==> AllClean(Prepend(j, r).value)
  {
    if r.Ok? {
      forall i | 0 <= i < |Prepend(j, r).value| ensures CleanRecord(Prepend(j, r).value[i]) {
        if i > 0 { assert Prepend(j, r).value[i] == r.value[i - 1]; }
      }
    }
  }

  /** Put several records in front of a parse result; an error stays an error. */
  function PrependAll(js: seq<JobRecord>, r: Result<seq<JobRecord>, ParseError>): Result<seq<JobRecord>, ParseError> {
    match r
    case Ok(rs) => Ok(js + rs)
    case Err(e) => Err(e)
  }

  /** The record built from a JOB block (stripped) and its detail. */
  function RecordOf(h: Header, block: string, d: Detail): (r: JobRecord)
    requires IsStripped(h.title) && IsStripped(h.company) && IsStripped(h.location)
    requires IsStripped(d.summary) && IsStripped(d.resume)
    ensures CleanRecord(r)
  {
    JobRecord(h.title, h.company, h.location, CollectLinks(Lines(block)), d.summary, d.resume)
  }

  /**
   Lines 184-240 as a fold over the raw blocks. Empty and non-JOB blocks are
   skipped; a JOB block takes the next raw block, stripped, as its detail.
   */
  function ParseBlocks(blocks: seq<string>): (r: Result<seq<JobRecord>, ParseError>)
    ensures r.Ok? ==> AllClean(r.value)
    decreases |blocks|
  {
    if |blocks| == 0 then Ok([])
    else
      var b := Strip(blocks[0]);
      if b == [] || !IsJobBlock(b) then ParseBlocks(blocks[1..])
      else
        match ParseHeader(FirstLine(b))
        case Err(e) => Err(e)
        case Ok(h) =>
          if |blocks| == 1 then Ok([RecordOf(h, b, Detail("", ""))])
          else
            var j := RecordOf(h, b, ParseDetail(Strip(blocks[1])));
            var rest := ParseBlocks(blocks[2..]);
            PrependKeepsClean(j, rest);
            Prepend(j, rest)
  }

  /** A JOB block that is the last raw block gets an empty detail. */
  lemma LastJobBlock(blocks: seq<string>)
    requires |blocks| == 1 && Strip(blocks[0]) != [] && IsJobBlock(Strip(blocks[0]))
    requires ParseHeader(FirstLine(Strip(blocks[0]))).Ok?
    ensures ParseBlocks(blocks) ==
      Ok([RecordOf(ParseHeader(FirstLine(Strip(blocks[0]))).value, Strip(blocks[0]), Detail("", ""))])
  {
  }

  lemma PrependOne(j: JobRecord, r: Result<seq<JobRecord>, ParseError>)
    ensures Prepend(j, r) == PrependAll([j], r)
  {
  }

  lemma PrependAllAtEnd(blocks: seq<string>, n: nat, js: seq<JobRecord>)
    requires n == |blocks|
    ensures PrependAll(js, ParseBlocks(blocks[n..])) == Ok(js)
  {
    assert blocks[n..] == [];
    assert js + [] == js;
  }

  lemma PrependAllNil(r: Result<seq<JobRecord>, ParseError>)
    ensures PrependAll([], r) == r
  {
    if r.Ok? {
      assert [] + r.value == r.value;
    }
  }

  /** Moving records from the front of the remainder to the end of the records found. */
  lemma PrependAllStep(js: seq<JobRecord>, more: seq<JobRecord>, r: Result<seq<JobRecord>, ParseError>)
    ensures PrependAll(js, PrependAll(more, r)) == PrependAll(js + more, r)
  {
    if r.Ok? {
      assert js + (more + r.value) == (js + more) + r.value;
    }
  }

  /** A block that is empty or not a JOB block is skipped. */
  lemma SkipBlock(blocks: seq<string>)
    requires |blocks| > 0 && (Strip(blocks[0]) == [] || !IsJobBlock(Strip(blocks[0])))
    ensures ParseBlocks(blocks) == ParseBlocks(blocks[1..])
  {
  }

  /** A JOB block whose header raises ends the parse with that error. */
  lemma CrashingBlock(blocks: seq<string>)
    requires |blocks| > 0 && Strip(blocks[0]) != [] && IsJobBlock(Strip(blocks[0]))
    requires ParseHeader(FirstLine(Strip(blocks[0]))).Err?
    ensures ParseBlocks(blocks) == Err(HeaderUnpack(FirstLine(Strip(blocks[0]))))
  {
  }

  /** A JOB block followed by another raw block: one record, then the parse of what follows the pair. */
  lemma JobBlockPair(blocks: seq<string>)
    requires |blocks| >= 2 && Strip(blocks[0]) != [] && IsJobBlock(Strip(blocks[0]))
    requires ParseHeader(FirstLine(Strip(blocks[0]))).Ok?
    ensures ParseBlocks(blocks) ==
      Prepend(RecordOf(ParseHeader(FirstLine(Strip(blocks[0]))).value, Strip(blocks[0]), ParseDetail(Strip(blocks[1]))),
              ParseBlocks(blocks[2..]))
  {
  }

  /** Block `i` is a JOB block whose header line raises `e`. */
  ghost predicate CrashesAt(blocks: seq<string>, i: int, e: ParseError) {
    && 0 <= i < |blocks| && IsJobBlock(Strip(blocks[i]))
    && HeaderCrashes(FirstLine(Strip(blocks[i])))
    && e == HeaderUnpack(FirstLine(Strip(blocks[i])))
  }

  lemma CrashesShift(blocks: seq<string>, n: nat, i: int, e: ParseError)
    requires n <= |blocks| && CrashesAt(blocks[n..], i, e)
    ensures CrashesAt(blocks, n + i, e)
  {
    assert blocks[n..][i] == blocks[n + i];
  }

  /** A parse that raises names the first line of a JOB block whose header crashes. */
  lemma {:induction false} ErrorFromCrashingHeader(blocks: seq<string>)
    requires ParseBlocks(blocks).Err?
    ensures exists i :: CrashesAt(blocks, i, ParseBlocks(blocks).error)
    decreases |blocks|
  {
    var b := Strip(blocks[0]);
    if b == [] || !IsJobBlock(b) {
      SkipBlock(blocks);
      ErrorFromCrashingHeader(blocks[1..]);
      var i :| CrashesAt(blocks[1..], i, ParseBlocks(blocks[1..]).error);
      CrashesShift(blocks, 1, i, ParseBlocks(blocks).error);
    } else if ParseHeader(FirstLine(b)).Err? {
      CrashingBlock(blocks);
      assert CrashesAt(blocks, 0, ParseBlocks(blocks).error);
    } else {
      assert |blocks| >= 2;
      JobBlockPair(blocks);
      ErrorFromCrashingHeader(blocks[2..]);
      var i :| CrashesAt(blocks[2..], i, ParseBlocks(blocks[2..]).error);
      CrashesShift(blocks, 2, i, ParseBlocks(blocks).error);
    }
  }

  /** Without a JOB block the digest yields no record and never raises. */
  lemma {:induction false} NoJobBlocks(blocks: seq<string>)
    requires forall i :: 0 <= i < |blocks| ==> Strip(blocks[i]) == [] || !IsJobBlock(Strip(blocks[i]))
    ensures ParseBlocks(blocks) == Ok([])
    decreases |blocks|
  {
    if |blocks| > 0 {
      SkipBlock(blocks);
      assert forall i :: 0 <= i < |blocks[1..]| ==> blocks[1..][i] == blocks[i + 1];
      NoJobBlocks(blocks[1..]);
    }
  }

  /**
   Two adjacent JOB blocks give one record: the second is consumed as the
   first one's detail block and its own header is never read.
   */
  lemma AdjacentJobBlocks(a: string, b: string, rest: seq<string>)
    requires Strip(a) != [] && IsJobBlock(Strip(a)) && ParseHeader(FirstLine(Strip(a))).Ok?
    requires Strip(b) != [] && IsJobBlock(Strip(b))
    ensures ParseBlocks([a, b] + rest) ==
      Prepend(RecordOf(ParseHeader(FirstLine(Strip(a))).value, Strip(a), ParseDetail(Strip(b))), ParseBlocks(rest))
  {
    var blocks := [a, b] + rest;
    assert blocks[0] == a && blocks[1] == b && blocks[2..] == rest;
    JobBlockPair(blocks);
  }

  /** The scan over `blocks` ends exactly at its end: no JOB block in it takes its detail from beyond. */
  ghost predicate Aligned(blocks: seq<string>)
    decreases |blocks|
  {
    if |blocks| == 0 then true
    else
      var b := Strip(blocks[0]);
      if b == [] || !IsJobBlock(b) then Aligned(blocks[1..])
      else if ParseHeader(FirstLine(b)).Err? then true
      else |blocks| >= 2 && Aligned(blocks[2..])
  }

  /** The records of `a` followed by the parse of `b`; an error in `a` wins. */
  function Then(ra: Result<seq<JobRecord>, ParseError>, rb: Result<seq<JobRecord>, ParseError>): Result<seq<JobRecord>, ParseError> {
    match ra
    case Err(e) => Err(e)
    case Ok(js) => PrependAll(js, rb)
  }

  /**
   Records come out in input order: for an aligned prefix the parse of the
   whole is the prefix's records followed by those of the rest.
   */
  lemma {:induction false} ParseBlocksAppend(a: seq<string>, b: seq<string>)
    requires Aligned(a)
    ensures ParseBlocks(a + b) == Then(ParseBlocks(a), ParseBlocks(b))
    decreases |a|
  {
    if |a| == 0 {
      assert a + b == b;
      PrependAllNil(ParseBlocks(b));
    } else {
      var x := Strip(a[0]);
      if x == [] || !IsJobBlock(x) {
        AppendSkip(a, b);
        ParseBlocksAppend(a[1..], b);
      } else if ParseHeader(FirstLine(x)).Err? {
        AppendCrash(a, b);
      } else {
        AppendPair(a, b);
        ParseBlocksAppend(a[2..], b);
        var j := RecordOf(ParseHeader(FirstLine(x)).value, x, ParseDetail(Strip(a[1])));
        ThenPrepend(j, ParseBlocks(a[2..]), ParseBlocks(b));
      }
    }
  }

  lemma AppendSkip(a: seq<string>, b: seq<string>)
    requires |a| > 0 && (Strip(a[0]) == [] || !IsJobBlock(Strip(a[0])))
    ensures ParseBlocks(a + b) == ParseBlocks(a[1..] + b) && ParseBlocks(a) == ParseBlocks(a[1..])
  {
    assert (a + b)[0] == a[0];
    assert (a + b)[1..] == a[1..] + b;
    SkipBlock(a);
    SkipBlock(a + b);
  }

  lemma AppendCrash(a: seq<string>, b: seq<string>)
    requires |a| > 0 && Strip(a[0]) != [] && IsJobBlock(Strip(a[0]))
    requires ParseHeader(FirstLine(Strip(a[0]))).Err?
    ensures ParseBlocks(a).Err? && ParseBlocks(a + b) == ParseBlocks(a)
  {
    assert (a + b)[0] == a[0];
    CrashingBlock(a);
    CrashingBlock(a + b);
  }

  lemma AppendPair(a: seq<string>, b: seq<string>)
    requires |a| >= 2 && Strip(a[0]) != [] && IsJobBlock(Strip(a[0]))
    requires ParseHeader(FirstLine(Strip(a[0]))).Ok?
    ensures var j := RecordOf(ParseHeader(FirstLine(Strip(a[0]))).value, Strip(a[0]), ParseDetail(Strip(a[1])));
      ParseBlocks(a + b) == Prepend(j, ParseBlocks(a[2..] + b)) && ParseBlocks(a) == Prepend(j, ParseBlocks(a[2..]))
  {
    PairShift(a, b);
    JobBlockPair(a);
    JobBlockPair(a + b);
  }

  lemma ThenPrepend(j: JobRecord, ra: Result<seq<JobRecord>, ParseError>, rb: Result<seq<JobRecord>, ParseError>)
    ensures Then(Prepend(j, ra), rb) == Prepend(j, Then(ra, rb))
  {
    if ra.Ok? && rb.Ok? {
      assert [j] + ra.value + rb.value == [j] + (ra.value + rb.value);
    }
  }

  /**
   A header written `Job: X at Y \U{2014} Z` passes the upper-case JOB test, but
   the split on the literal `JOB:` finds nothing, so the parser raises.
   */
  lemma CaseMismatchHeaderCrashes(before: string, location: string)
    requires before == "Job: Dev at Acme" && NoSpace(location)
    ensures ParseHeader(LinkKey.FormatLink(before, location)) == Err(HeaderUnpack(LinkKey.FormatLink(before, location)))
  {
    TitleCaseTag(before);
    FormattedHeaderCrashes(before, location);
  }

  /** A header `before \U{2014} location` raises exactly when its part before the separator fails the tag split. */
  lemma FormattedHeaderCrashes(before: string, location: string)
    requires NoSpace(location)
    requires Contains(before, At) && StartsWith(Upper(before), JobTag) && !Contains(before, JobTag)
    ensures ParseHeader(LinkKey.FormatLink(before, location)) == Err(HeaderUnpack(LinkKey.FormatLink(before, location)))
  {
    var line := LinkKey.FormatLink(before, location);
    var k := |before|;
    LinkKey.LastSepOfFormatted(before, location);
    assert line[..k] == before;
    assert HeaderCrashes(line) by {
      assert IsLastOccurrence(line, LinkKey.Sep, k);
    }
    HeaderErrIff(line);
  }

  /** A mixed-case `Job:` line before the location passes the upper-case test but holds no `JOB:`. */
  lemma TitleCaseTag(before: string)
    requires before == "Job: Dev at Acme"
    ensures Contains(before, At) && StartsWith(Upper(before), JobTag) && !Contains(before, JobTag)
  {
    assert before[8..12] == At;
    assert OccursAt(before, At, 8);
    var u := Upper(before);
    assert u[0] == 'J' && u[1] == 'O' && u[2] == 'B' && u[3] == ':';
    assert u[..4] == JobTag;
    assert 'O' !in before;
    MissingCharNoOccurrence(before, JobTag, 1);
  }

  /** `parse_digest(digest_text)`. */
  function ParseDigest(text: string): (r: Result<seq<JobRecord>, ParseError>)
    ensures r.Ok? ==> AllClean(r.value)
  {
    ParseBlocks(Split(text, Rule))
  }

  /** The program's index loop, with its cursor jump past the detail block. */
  method ParseDigestLoop(text: string) returns (r: Result<seq<JobRecord>, ParseError>)
    ensures r == ParseDigest(text)
  {
    var blocks := Split(text, Rule);
    var jobs: seq<JobRecord> := [];
    var i := 0;
    assert blocks[0..] == blocks;
    PrependAllNil(ParseBlocks(blocks));
    while i < |blocks|
      invariant 0 <= i <= |blocks|
      invariant ParseBlocks(blocks) == PrependAll(jobs, ParseBlocks(blocks[i..]))
      decreases |blocks| - i
    {
      var turn := TurnAt(blocks, i);
      TurnAdvances(blocks, i);
      if turn.err.Some? {
        return Err(turn.err.value);
      }
      PrependAllStep(jobs, turn.found, ParseBlocks(blocks[turn.next..]));
      jobs := jobs + turn.found;
      i := turn.next;
    }
    assert blocks[i..] == [];
    assert jobs + [] == jobs;
    r := Ok(jobs);
  }

  /** Where one turn of the loop leaves the cursor, the records it adds, and the error it raises. */
  datatype Turn = Turn(next: nat, found: seq<JobRecord>, err: Option<ParseError>)

  /**
   One turn of the loop at cursor `i`: skip the block, or read a JOB block and,
   when there is one, the raw block after it as its detail.
   */
  function TurnAt(blocks: seq<string>, i: nat): Turn
    requires i < |blocks|
  {
    var block := Strip(blocks[i]);
    if block == [] || !IsJobBlock(block) then Turn(i + 1, [], None)
    else
      match ParseHeader(FirstLine(block))
      case Err(e) => Turn(i + 1, [], Some(e))
      case Ok(h) =>
        if i + 1 < |blocks| then Turn(i + 2, [RecordOf(h, block, ParseDetail(Strip(blocks[i + 1])))], None)
        else Turn(i + 1, [RecordOf(h, block, Detail("", ""))], None)
  }

  /** A turn moves the cursor forward and accounts for exactly the fold's work on the blocks it passes. */
  lemma TurnAdvances(blocks: seq<string>, i: nat)
    requires i < |blocks|
    ensures var t := TurnAt(blocks, i); i < t.next <= |blocks|
    ensures var t := TurnAt(blocks, i); t.err.Some? ==> ParseBlocks(blocks[i..]) == Err(t.err.value)
    ensures var t := TurnAt(blocks, i);
      t.err.None? ==> ParseBlocks(blocks[i..]) == PrependAll(t.found, ParseBlocks(blocks[t.next..]))
  {
    var block := Strip(blocks[i]);
    if block == [] || !IsJobBlock(block) {
      TurnSkip(blocks, i);
    } else if ParseHeader(FirstLine(block)).Err? {
      CrashingBlock(blocks[i..]);
    } else if i + 1 < |blocks| {
      TurnPair(blocks, i);
    } else {
      TurnLast(blocks, i);
    }
  }

  lemma TurnSkip(blocks: seq<string>, i: nat)
    requires i < |blocks| && (Strip(blocks[i]) == [] || !IsJobBlock(Strip(blocks[i])))
    ensures ParseBlocks(blocks[i..]) == PrependAll([], ParseBlocks(blocks[i + 1..]))
  {
    SkipBlock(blocks[i..]);
    assert blocks[i..][1..] == blocks[i + 1..];
    PrependAllNil(ParseBlocks(blocks[i + 1..]));
  }

  lemma TurnPair(blocks: seq<string>, i: nat)
    requires i + 1 < |blocks| && Strip(blocks[i]) != [] && IsJobBlock(Strip(blocks[i]))
    requires ParseHeader(FirstLine(Strip(blocks[i]))).Ok?
    ensures ParseBlocks(blocks[i..]) == PrependAll(TurnAt(blocks, i).found, ParseBlocks(blocks[i + 2..]))
  {
    assert blocks[i..][0] == blocks[i] && blocks[i..][1] == blocks[i + 1];
    JobBlockPair(blocks[i..]);
    assert blocks[i..][2..] == blocks[i + 2..];
    PrependOne(TurnAt(blocks, i).found[0], ParseBlocks(blocks[i + 2..]));
  }

  lemma TurnLast(blocks: seq<string>, i: nat)
    requires i + 1 == |blocks| && Strip(blocks[i]) != [] && IsJobBlock(Strip(blocks[i]))
    requires ParseHeader(FirstLine(Strip(blocks[i]))).Ok?
    ensures ParseBlocks(blocks[i..]) == PrependAll(TurnAt(blocks, i).found, ParseBlocks(blocks[i + 1..]))
  {
    TurnLastFound(blocks, i);
    LastJobBlockAt(blocks, i);
    PrependAllAtEnd(blocks, i + 1, TurnAt(blocks, i).found);
  }

  lemma TurnLastFound(blocks: seq<string>, i: nat)
    requires i + 1 == |blocks| && Strip(blocks[i]) != [] && IsJobBlock(Strip(blocks[i]))
    requires ParseHeader(FirstLine(Strip(blocks[i]))).Ok?
    ensures TurnAt(blocks, i).found == [RecordOf(ParseHeader(FirstLine(Strip(blocks[i]))).value, Strip(blocks[i]), Detail("", ""))]
  {
  }

  lemma LastJobBlockAt(blocks: seq<string>, i: nat)
    requires i + 1 == |blocks| && Strip(blocks[i]) != [] && IsJobBlock(Strip(blocks[i]))
    requires ParseHeader(FirstLine(Strip(blocks[i]))).Ok?
    ensures ParseBlocks(blocks[i..]) == Ok([RecordOf(ParseHeader(FirstLine(Strip(blocks[i]))).value, Strip(blocks[i]), Detail("", ""))])
  {
    assert blocks[i..] == [blocks[i]];
    LastJobBlock([blocks[i]]);
  }
}

=== FILE: digest_render.dfy ===
/**
 The digest layout the parser is written for, as a renderer: each job becomes a
 JOB block (header line, `links:` line, one `- <url>` line per link) and a
 detail block (`JOB SUMMARY:` and `TAILORED RESUME:` sections), and all blocks
 are joined by the 40-`=` rule. For records whose fields cannot be mistaken
 for the layout's own markers, parsing the rendered digest gives the records
 back.
 */
module DigestRender {
  import opened Wrappers
  import opened PyStr
  import opened DigestParser
  import LinkKey

  // ---------------------------------------------------------------------
  // Rendering
  // ---------------------------------------------------------------------

  /** The text before the location: `JOB: <title> at <company>`. */
  function TitleCompany(j: JobRecord): string {
    "JOB: " + j.title + At + j.company
  }

  /** `JOB: <title> at <company> — <location>`. */
  function HeaderLine(j: JobRecord): string {
    LinkKey.FormatLink(TitleCompany(j), j.location)
  }

  /** `- <url>` for each link. */
  function LinkLines(links: seq<string>): (r: seq<string>)
    ensures |r| == |links|
    decreases |links|
  {
    if |links| == 0 then [] else ["- " + links[0]] + LinkLines(links[1..])
  }

  /** The JOB block: header line, `links:`, then the link lines. */
  function JobBlock(j: JobRecord): string {
    Join([HeaderLine(j), LinksTag] + LinkLines(j.links), "\n")
  }

  /** The detail block up to the second label: `JOB SUMMARY:`, the summary, a blank line, `TAILORED RESUME:`. */
  function DetailHead(summary: string): string {
    SummaryLabel + "\n" + summary + "\n\n" + ResumeLabel
  }

  /** The detail block: each label on its own line, followed by its text. */
  function DetailBlock(j: JobRecord): string {
    DetailHead(j.summary) + "\n" + j.resume
  }

  /** A block as it sits between two rules: on lines of its own. */
  function Padded(block: string): string {
    "\n" + block + "\n"
  }

  /** The raw blocks of a digest: two per job, in order. */
  function Pieces(jobs: seq<JobRecord>): (r: seq<string>)
    ensures |r| == 2 * |jobs|
    decreases |jobs|
  {
    if |jobs| == 0 then []
    else [Padded(JobBlock(jobs[0])), Padded(DetailBlock(jobs[0]))] + Pieces(jobs[1..])
  }

  /** The digest text for a list of jobs. */
  function Render(jobs: seq<JobRecord>): string {
    Join(Pieces(jobs), Rule)
  }

  // ---------------------------------------------------------------------
  // Which records the layout can carry
  // ---------------------------------------------------------------------

  /** A one-line field: non-empty, trimmed, without a line break. */
  ghost predicate LineField(s: string) {
    s != [] && IsStripped(s) && '\n' !in s
  }

  /** A link as the parser keeps it: one trimmed line that mentions "http". */
  ghost predicate LinkField(s: string) {
    LineField(s) && Contains(s, "http")
  }

  /**
   A record the layout carries unambiguously: one-line title, company and
   location; the " at " written after the title is the last one in
   `title at company`; the location holds no EM DASH; every link is a
   one-line text containing "http"; summary and resume are trimmed and the
   summary holds no `TAILORED RESUME:` in any letter case; and neither
   rendered block contains the rule.
   */
  ghost predicate WellFormed(j: JobRecord) {
    && LineField(j.title) && LineField(j.company) && LineField(j.location)
    && IsLastOccurrence(j.title + At + j.company, At, |j.title|)
    && '\U{2014}' !in j.location
    && (forall i :: 0 <= i < |j.links| ==> LinkField(j.links[i]))
    && IsStripped(j.summary) && IsStripped(j.resume)
    && !Contains(Upper(j.summary), ResumeLabel)
    && !Contains(JobBlock(j), Rule) && !Contains(DetailBlock(j), Rule)
  }

  // ---------------------------------------------------------------------
  // The header line
  // ---------------------------------------------------------------------

  /** With an EM-DASH-free location, the separator written before it is the last one. */
  lemma LastSepBeforeLocation(text: string, location: string)
    requires '\U{2014}' !in location
    ensures IsLastOccurrence(LinkKey.FormatLink(text, location), LinkKey.Sep, |text|)
  {
    var s := LinkKey.FormatLink(text, location);
    var p := |text|;
    assert s == text + LinkKey.Sep + location;
    forall k | p < k ensures !OccursAt(s, LinkKey.Sep, k) {
      if k + |LinkKey.Sep| <= |s| {
        if k == p + 1 {
          assert s[k..k + |LinkKey.Sep|][0] != LinkKey.Sep[0];
        } else {
          assert s[k + 1] == location[k + 1 - p - |LinkKey.Sep|];
          assert s[k..k + |LinkKey.Sep|][1] != LinkKey.Sep[1];
        }
      }
    }
  }

  /** `JOB:` opens the title-and-company text, in upper case too. */
  lemma TagOpens(before: string, x: string)
    requires before == "JOB: " + x
    ensures IsFirstOccurrence(before, JobTag, 0)
    ensures StartsWith(Upper(before), JobTag)
  {
    assert before[..4] == JobTag;
    UpperPrefix(before, 4);
    assert Upper(before[..4]) == JobTag;
  }

  /** The text after `JOB:`, trimmed, is `title at company`. */
  lemma AfterTag(before: string, title: string, company: string)
    requires before == "JOB: " + (title + At + company)
    requires LineField(title) && LineField(company)
    ensures Strip(before[|JobTag|..]) == title + At + company
  {
    var x := title + At + company;
    assert before[|JobTag|..] == " " + x + "";
    assert IsStripped(x) by {
      assert x[0] == title[0];
      assert x[|x| - 1] == company[|company| - 1];
    }
    StripPadded(" ", x, "");
  }

  /** The header line parses back to the record's title, company and location. */
  lemma HeaderRoundTrip(j: JobRecord)
    requires WellFormed(j)
    ensures ParseHeader(HeaderLine(j)) == Ok(Header(j.title, j.company, j.location))
  {
    assert TitleCompany(j) == "JOB: " + (j.title + At + j.company);
    HeaderOfFields(TitleCompany(j), j.title, j.company, j.location);
  }

  lemma HeaderOfFields(before: string, title: string, company: string, location: string)
    requires before == "JOB: " + (title + At + company)
    requires LineField(title) && LineField(company) && LineField(location)
    requires IsLastOccurrence(title + At + company, At, |title|)
    requires '\U{2014}' !in location
    ensures ParseHeader(LinkKey.FormatLink(before, location)) == Ok(Header(title, company, location))
  {
    var line := LinkKey.FormatLink(before, location);
    var rest := title + At + company;
    LineAroundSep(before, location);
    TagOpens(before, rest);
    AfterTag(before, title, company);
    HeaderFromParts(line, before, |before|, rest, |title|);
    FieldsAroundAt(title, company);
    StripOfStripped(location);
  }

  /** The two sides of the separator written into the header line. */
  lemma LineAroundSep(before: string, location: string)
    requires '\U{2014}' !in location
    ensures var line := LinkKey.FormatLink(before, location);
      && IsLastOccurrence(line, LinkKey.Sep, |before|)
      && line[..|before|] == before
      && line[|before| + |LinkKey.Sep|..] == location
  {
    LastSepBeforeLocation(before, location);
  }

  /** The two sides of the " at " written between title and company, trimmed. */
  lemma FieldsAroundAt(title: string, company: string)
    requires IsStripped(title) && IsStripped(company)
    ensures var rest := title + At + company;
      Strip(rest[..|title|]) == title && Strip(rest[|title| + |At|..]) == company
  {
    var rest := title + At + company;
    assert rest[..|title|] == title;
    assert rest[|title| + |At|..] == company;
    StripOfStripped(title);
    StripOfStripped(company);
  }

  /** `HeaderTitleCompany` with the text before the location and the trimmed text after `JOB:` named. */
  lemma HeaderFromParts(line: string, before: string, k: nat, rest: string, m: int)
    requires k == |before| && k <= |line| && line[..k] == before
    requires IsLastOccurrence(line, LinkKey.Sep, k)
    requires StartsWith(Upper(before), JobTag) && IsFirstOccurrence(before, JobTag, 0)
    requires rest == Strip(before[|JobTag|..]) && IsLastOccurrence(rest, At, m)
    ensures ParseHeader(line) == Ok(Header(Strip(rest[..m]), Strip(rest[m + |At|..]), Strip(line[k + |LinkKey.Sep|..])))
  {
    assert line[..k][0 + |JobTag|..] == before[|JobTag|..];
    HeaderTitleCompany(line, k, 0, m);
  }

  // ---------------------------------------------------------------------
  // The JOB block: lines and links
  // ---------------------------------------------------------------------

  /** A line with no line break is its own single piece when a text is split on "\n". */
  lemma OneLinePiece(line: string)
    requires '\n' !in line
    ensures CleanPiece(line, "\n")
  {
    MissingCharNoOccurrence(line, "\n", 0);
    SingleCharClean(line, "\n");
  }

  /** The lines of the JOB block are the lines it was joined from. */
  lemma JobBlockLines(j: JobRecord)
    requires WellFormed(j)
    ensures Lines(JobBlock(j)) == [HeaderLine(j), LinksTag] + LinkLines(j.links)
  {
    HeaderOneLine(j.title, j.company, j.location);
    TagOneLine();
    BlockLinesOneLine(HeaderLine(j), LinksTag, j.links);
    LinesOfJoin([HeaderLine(j), LinksTag] + LinkLines(j.links));
  }

  lemma HeaderOneLine(title: string, company: string, location: string)
    requires '\n' !in title && '\n' !in company && '\n' !in location
    ensures '\n' !in HeaderLine(JobRecord(title, company, location, [], "", ""))
  {
  }

  lemma TagEndsSolid()
    ensures EndsSolid(LinksTag)
  {
  }

  lemma TagOneLine()
    ensures '\n' !in LinksTag
  {
  }

  /** Splitting lines joined with newlines gives them back, when none holds a newline. */
  lemma LinesOfJoin(xs: seq<string>)
    requires |xs| >= 1 && forall i :: 0 <= i < |xs| ==> '\n' !in xs[i]
    ensures Split(Join(xs, "\n"), "\n") == xs
  {
    OneLinePieces(xs);
    SplitOfJoin(xs, "\n");
  }

  /** No line of the JOB block holds a newline. */
  lemma BlockLinesOneLine(h: string, tag: string, links: seq<string>)
    requires '\n' !in h && '\n' !in tag
    requires forall i :: 0 <= i < |links| ==> LinkField(links[i])
    ensures forall i :: 0 <= i < |[h, tag] + LinkLines(links)| ==> '\n' !in ([h, tag] + LinkLines(links))[i]
  {
    LinkLinesOneLine(links);
    ConsOneLine(h, tag, LinkLines(links));
  }

  lemma LinkLinesOneLine(links: seq<string>)
    requires forall i :: 0 <= i < |links| ==> LinkField(links[i])
    ensures forall i :: 0 <= i < |LinkLines(links)| ==> '\n' !in LinkLines(links)[i]
  {
    forall i | 0 <= i < |LinkLines(links)| ensures '\n' !in LinkLines(links)[i] {
      LinkLineAt(links, i);
    }
  }

  lemma ConsOneLine(h: string, tag: string, ys: seq<string>)
    requires '\n' !in h && '\n' !in tag
    requires forall i :: 0 <= i < |ys| ==> '\n' !in ys[i]
    ensures forall i :: 0 <= i < |[h, tag] + ys| ==> '\n' !in ([h, tag] + ys)[i]
  {
    forall i | 0 <= i < |[h, tag] + ys| ensures '\n' !in ([h, tag] + ys)[i] {
      if i >= 2 {
        assert ([h, tag] + ys)[i] == ys[i - 2];
      }
    }
  }

  lemma OneLinePieces(xs: seq<string>)
    requires forall i :: 0 <= i < |xs| ==> '\n' !in xs[i]
    ensures forall i :: 0 <= i < |xs| ==> CleanPiece(xs[i], "\n")
  {
    forall i | 0 <= i < |xs| ensures CleanPiece(xs[i], "\n") {
      OneLinePiece(xs[i]);
    }
  }

  /** The `i`-th link line, and that it is one line. */
  lemma LinkLineAt(links: seq<string>, i: nat)
    requires i < |links| && '\n' !in links[i]
    ensures LinkLines(links)[i] == "- " + links[i] && '\n' !in LinkLines(links)[i]
    decreases i
  {
    if i > 0 {
      LinkLineAt(links[1..], i - 1);
    }
  }

  /** A trimmed line whose first letter is not `l` in either case does not switch links mode on. */
  lemma NotLinksLine(t: string)
    requires t != [] && IsStripped(t) && LowerChar(t[0]) != 'l'
    ensures !IsLinksLine(t)
  {
    StripOfStripped(t);
    var lo := Lower(t);
    if |lo| >= |LinksTag| {
      assert lo[..|LinksTag|][0] == lo[0] == LowerChar(t[0]);
      assert LinksTag[0] == 'l';
    }
  }

  /** A link line is not a `links:` line and yields its link. */
  lemma DashLinkOf(l: string)
    requires LinkField(l)
    ensures !IsLinksLine("- " + l) && DashLink("- " + l) == [l]
  {
    var t := "- " + l;
    DashLineStripped(l);
    NotLinksLine(t);
    DashTail(l);
    DashParts(t, l);
    DashLinkWhen(t, l);
  }

  lemma DashTail(l: string)
    requires IsStripped(l)
    ensures Strip(("- " + l)[1..]) == l
  {
    assert ("- " + l)[1..] == " " + l;
    StripLeading(" ", l);
  }

  lemma DashLineStripped(l: string)
    requires l != [] && IsStripped(l)
    ensures IsStripped("- " + l) && ("- " + l)[0] == '-'
  {
    var t := "- " + l;
    assert t[|t| - 1] == l[|l| - 1];
  }

  lemma DashParts(t: string, l: string)
    requires |t| > 0 && t[0] == '-' && IsStripped(t) && Strip(t[1..]) == l
    ensures StartsWith(Strip(t), "-") && Strip(Strip(t)[1..]) == l
  {
    StrippedHead(t);
    assert Strip(t)[..1][0] == '-';
  }

  /** Stripping a stripped text leaves its first character and the rest in place. */
  lemma StrippedHead(t: string)
    requires |t| > 0 && IsStripped(t)
    ensures Strip(t)[0] == t[0] && Strip(t)[1..] == t[1..]
  {
    StripOfStripped(t);
  }

  /** In links mode the link lines give back the links, in order. */
  lemma {:induction false} LinksOfLinkLines(links: seq<string>)
    requires forall i :: 0 <= i < |links| ==> LinkField(links[i])
    ensures LinksFrom(LinkLines(links), true) == links
    decreases |links|
  {
    if |links| > 0 {
      LinkLinesCons(links);
      assert forall i :: 0 <= i < |links[1..]| ==> links[1..][i] == links[i + 1];
      LinksOfLinkLines(links[1..]);
      HeadTail(links);
    }
  }

  lemma LinkLinesCons(links: seq<string>)
    requires |links| > 0 && LinkField(links[0])
    ensures LinksFrom(LinkLines(links), true) == [links[0]] + LinksFrom(LinkLines(links[1..]), true)
  {
    DashLinkOf(links[0]);
    LinkLinesStep(links);
  }

  /** One link line, read in links mode, yields its link ahead of the rest. */
  lemma LinkLinesStep(links: seq<string>)
    requires |links| > 0
    requires !IsLinksLine("- " + links[0]) && DashLink("- " + links[0]) == [links[0]]
    ensures LinksFrom(LinkLines(links), true) == [links[0]] + LinksFrom(LinkLines(links[1..]), true)
  {
    var ls := LinkLines(links);
    assert ls[0] == "- " + links[0] && ls[1..] == LinkLines(links[1..]);
    LinksFromLinkMode(ls);
  }

  /** The header line does not switch links mode on; the `links:` line does. */
  lemma HeaderIsNoLinksLine(j: JobRecord)
    requires LineField(j.location)
    ensures !IsLinksLine(HeaderLine(j))
  {
    var h := HeaderLine(j);
    assert h == "JOB: " + j.title + At + j.company + LinkKey.Sep + j.location;
    assert h[0] == 'J';
    assert h[|h| - 1] == j.location[|j.location| - 1];
    NotLinksLine(h);
  }

  lemma LinksTagSwitches()
    ensures IsLinksLine(LinksTag)
  {
    StripOfStripped(LinksTag);
    assert Lower(LinksTag) == LinksTag;
  }

  /** The links collected from the JOB block are the record's links. */
  lemma JobBlockLinks(j: JobRecord)
    requires WellFormed(j)
    ensures CollectLinks(Lines(JobBlock(j))) == j.links
  {
    JobBlockLines(j);
    HeaderIsNoLinksLine(j);
    LinksTagSwitches();
    LinksOfLinkLines(j.links);
    LinksOfBlockLines(HeaderLine(j), LinksTag, LinkLines(j.links));
  }

  lemma LinksOfBlockLines(h: string, tag: string, rest: seq<string>)
    requires !IsLinksLine(h) && IsLinksLine(tag)
    ensures CollectLinks([h, tag] + rest) == LinksFrom(rest, true)
  {
    var xs := [h, tag] + rest;
    var ys := xs[1..];
    assert xs[0] == h && ys[0] == tag && ys[1..] == rest;
    LinksFromSkip(xs);
    LinksFromSwitch(ys, false);
  }

  /** The JOB block is trimmed, is recognised as a JOB block, and its first line is the header line. */
  lemma JobBlockShape(j: JobRecord)
    requires WellFormed(j)
    ensures JobBlock(j) != [] && IsStripped(JobBlock(j)) && IsJobBlock(JobBlock(j))
    ensures FirstLine(JobBlock(j)) == HeaderLine(j)
  {
    JobBlockLines(j);
    JobBlockOpens(j);
    JobBlockEnds(j);
  }

  /** The JOB block ends with the last character of its last line. */
  lemma JobBlockEnds(j: JobRecord)
    requires WellFormed(j)
    ensures EndsSolid(JobBlock(j))
  {
    var xs := [HeaderLine(j), LinksTag] + LinkLines(j.links);
    TagEndsSolid();
    LastLineEnd(HeaderLine(j), LinksTag, j.links);
    JoinLast(xs, "\n");
  }

  /** The JOB block opens with `JOB: `. */
  lemma JobBlockOpens(j: JobRecord)
    ensures var b := JobBlock(j); b != [] && !IsSpace(b[0]) && IsJobBlock(b)
  {
    var xs := [HeaderLine(j), LinksTag] + LinkLines(j.links);
    var b := JobBlock(j);
    var x := j.title + At + j.company + LinkKey.Sep + j.location + "\n" + Join(xs[1..], "\n");
    assert b == "JOB: " + x;
    TagOpens(b, x);
  }

  /** The last line of the JOB block ends in a character that is not whitespace. */
  lemma LastLineEnd(h: string, tag: string, links: seq<string>)
    requires EndsSolid(tag)
    requires forall i :: 0 <= i < |links| ==> LinkField(links[i])
    ensures var xs := [h, tag] + LinkLines(links); EndsSolid(xs[|xs| - 1])
  {
    var ys := LinkLines(links);
    if |links| > 0 {
      var n := |links| - 1;
      LinkLineAt(links, n);
      DashEnds(links[n]);
      LastOfLonger(h, tag, ys);
    } else {
      LastOfShort(h, tag, ys);
    }
  }

  /** A text that ends in a character other than whitespace. */
  predicate EndsSolid(x: string) {
    x != [] && !IsSpace(x[|x| - 1])
  }

  lemma LastOfLonger<T>(h: T, tag: T, ys: seq<T>)
    requires |ys| > 0
    ensures var xs := [h, tag] + ys; xs[|xs| - 1] == ys[|ys| - 1]
  {
  }

  lemma LastOfShort<T>(h: T, tag: T, ys: seq<T>)
    requires |ys| == 0
    ensures var xs := [h, tag] + ys; xs[|xs| - 1] == tag
  {
  }

  /** A link line ends where its link ends. */
  lemma DashEnds(l: string)
    requires l != [] && IsStripped(l)
    ensures EndsSolid("- " + l)
  {
    var t := "- " + l;
    assert t[|t| - 1] == l[|l| - 1];
  }

  // ---------------------------------------------------------------------
  // The detail block
  // ---------------------------------------------------------------------

  /** Where the labels, the summary and the line breaks sit in `DetailHead(summary) + tail`. */
  lemma DetailLayout(summary: string, tail: string, d: string)
    requires d == DetailHead(summary) + tail
    ensures var n := |summary|;
      && |d| == n + 31 + |tail|
      && d[..12] == SummaryLabel && d[12] == '\n'
      && d[13..13 + n] == summary && d[13 + n] == '\n' && d[14 + n] == '\n'
      && d[n + 15..n + 31] == ResumeLabel && d[n + 31..] == tail
      && d[12..n + 15] == "\n" + summary + "\n\n"
  {
  }

  /**
   In the upper-cased detail text `JOB SUMMARY:` opens it, and the first
   `TAILORED RESUME:` is the label written after the summary.
   */
  lemma DetailLabels(summary: string, tail: string, d: string, u: string)
    requires d == DetailHead(summary) + tail && u == Upper(d)
    requires !Contains(Upper(summary), ResumeLabel)
    ensures IsFirstOccurrence(u, SummaryLabel, 0)
    ensures OccursAt(u, ResumeLabel, |summary| + 15)
    ensures forall p :: 0 <= p < |summary| + 15 ==> !OccursAt(u, ResumeLabel, p)
  {
    SummaryLabelOpens(summary, tail, d, u);
    ResumeLabelFollows(summary, tail, d, u);
    NoEarlierResumeLabel(summary, tail, d, u);
  }

  lemma SummaryLabelOpens(summary: string, tail: string, d: string, u: string)
    requires d == DetailHead(summary) + tail && u == Upper(d)
    ensures IsFirstOccurrence(u, SummaryLabel, 0)
  {
    assert d[..12] == SummaryLabel;
    UpperPrefix(d, 12);
    LabelsAreUpper();
  }

  lemma ResumeLabelFollows(summary: string, tail: string, d: string, u: string)
    requires d == DetailHead(summary) + tail && u == Upper(d)
    ensures OccursAt(u, ResumeLabel, |summary| + 15)
  {
    var n := |summary|;
    assert d[n + 15..n + 31] == ResumeLabel;
    UpperSlice(d, n + 15, n + 31);
    LabelsAreUpper();
  }

  lemma ResumeLabelIsOneLine()
    ensures '\n' !in ResumeLabel && |ResumeLabel| == 16
  {
  }

  /** Both labels are written in capitals. */
  lemma LabelsAreUpper()
    ensures Upper(SummaryLabel) == SummaryLabel && Upper(ResumeLabel) == ResumeLabel
  {
    UpperOfUpper(SummaryLabel);
    UpperOfUpper(ResumeLabel);
  }

  lemma NoEarlierResumeLabel(summary: string, tail: string, d: string, u: string)
    requires d == DetailHead(summary) + tail && u == Upper(d)
    requires !Contains(Upper(summary), ResumeLabel)
    ensures forall p :: 0 <= p < |summary| + 15 ==> !OccursAt(u, ResumeLabel, p)
  {
    var n := |summary|;
    assert d[12] == '\n' && d[13 + n] == '\n' && d[14 + n] == '\n';
    assert d[13..13 + n] == summary;
    UpperSlice(d, 13, 13 + n);
    assert u[12] == '\n' && u[13 + n] == '\n' && u[14 + n] == '\n';
    ResumeLabelIsOneLine();
    forall p | 0 <= p < n + 15 ensures !OccursAt(u, ResumeLabel, p) {
      NoLabelBefore(u, Upper(summary), ResumeLabel, p);
    }
  }

  /**
   A 16-character label without a line break cannot start before index
   `|w| + 15` of a text that has line breaks at 12, `|w| + 13` and `|w| + 14`
   and the label-free `w` in between.
   */
  lemma NoLabelBefore(u: string, w: string, mark: string, p: int)
    requires |mark| == 16 && '\n' !in mark && !Contains(w, mark)
    requires |u| >= |w| + 15 && u[13..13 + |w|] == w
    requires u[12] == '\n' && u[13 + |w|] == '\n' && u[14 + |w|] == '\n'
    requires 0 <= p < |w| + 15
    ensures !OccursAt(u, mark, p)
  {
    var n := |w|;
    if p + 16 <= |u| {
      var x := u[p..p + 16];
      if p <= 12 {
        assert x[12 - p] == '\n';
      } else if p + 16 <= 13 + n {
        SliceOfSlice(u, 13, 13 + n, p - 13, p + 3);
        assert !OccursAt(w, mark, p - 13);
      } else if p <= 13 + n {
        assert x[13 + n - p] == '\n';
      } else {
        assert x[14 + n - p] == '\n';
      }
    }
  }

  /** The detail text, with or without its final line break, parses to the summary and the resume. */
  lemma DetailOfHead(summary: string, resume: string, tail: string)
    requires IsStripped(summary) && IsStripped(resume) && !Contains(Upper(summary), ResumeLabel)
    requires tail == "\n" + resume || (tail == [] && resume == [])
    ensures ParseDetail(DetailHead(summary) + tail) == Detail(summary, resume)
  {
    var d := DetailHead(summary) + tail;
    var n := |summary|;
    DetailLabels(summary, tail, d, Upper(d));
    DetailBothLabels(d, 0, n + 15);
    DetailTexts(summary, resume, tail, d);
  }

  /** Between the labels lies the summary on lines of its own; after the second, the resume. */
  lemma DetailTexts(summary: string, resume: string, tail: string, d: string)
    requires IsStripped(summary) && IsStripped(resume)
    requires tail == "\n" + resume || (tail == [] && resume == [])
    requires d == DetailHead(summary) + tail
    ensures Strip(d[12..|summary| + 15]) == summary && Strip(d[|summary| + 31..]) == resume
  {
    DetailLayout(summary, tail, d);
    LineBreaksAreSpace();
    StripPadded("\n", summary, "\n\n");
    if tail == [] {
      StripOfStripped(tail);
    } else {
      StripLeading("\n", resume);
    }
  }

  lemma LineBreaksAreSpace()
    ensures AllSpace("\n") && AllSpace("\n\n")
  {
  }

  /** The head of the detail block is trimmed. */
  lemma DetailHeadEnds(summary: string)
    ensures var h := DetailHead(summary); h != [] && IsStripped(h)
  {
    var h := DetailHead(summary);
    assert h[0] == 'J';
    assert h[|h| - 1] == ':';
  }

  /** The detail block, as the parser strips it, gives back the summary and the resume. */
  lemma DetailRoundTrip(j: JobRecord)
    requires WellFormed(j)
    ensures ParseDetail(Strip(Padded(DetailBlock(j)))) == Detail(j.summary, j.resume)
  {
    DetailOfFields(j.summary, j.resume);
  }

  lemma DetailOfFields(summary: string, resume: string)
    requires IsStripped(summary) && IsStripped(resume) && !Contains(Upper(summary), ResumeLabel)
    ensures ParseDetail(Strip(Padded(DetailHead(summary) + "\n" + resume))) == Detail(summary, resume)
  {
    var tail := if resume == [] then [] else "\n" + resume;
    StrippedDetail(summary, resume);
    DetailOfHead(summary, resume, tail);
  }

  /** Stripping the padded detail block drops the final line break only when the resume is empty. */
  lemma StrippedDetail(summary: string, resume: string)
    requires IsStripped(resume)
    ensures Strip(Padded(DetailHead(summary) + "\n" + resume))
         == DetailHead(summary) + (if resume == [] then [] else "\n" + resume)
  {
    DetailHeadEnds(summary);
    LineBreaksAreSpace();
    if resume == [] {
      StrippedEmptyResume(DetailHead(summary), resume);
    } else {
      StrippedResume(DetailHead(summary), resume);
    }
  }

  lemma StrippedEmptyResume(h: string, resume: string)
    requires IsStripped(h) && resume == [] && AllSpace("\n") && AllSpace("\n\n")
    ensures Strip(Padded(h + "\n" + resume)) == h + []
  {
    assert Padded(h + "\n" + resume) == "\n" + h + "\n\n";
    StripPadded("\n", h, "\n\n");
    assert h + [] == h;
  }

  lemma StrippedResume(h: string, resume: string)
    requires h != [] && IsStripped(h) && resume != [] && IsStripped(resume) && AllSpace("\n")
    ensures Strip(Padded(h + "\n" + resume)) == h + ("\n" + resume)
  {
    var b := h + "\n" + resume;
    assert b[0] == h[0] && b[|b| - 1] == resume[|resume| - 1];
    StripPadded("\n", b, "\n");
    assert b == h + ("\n" + resume);
  }

  // ---------------------------------------------------------------------
  // The whole digest
  // ---------------------------------------------------------------------

  /** The rule is forty copies of one character other than a line break. */
  lemma RuleShape()
    ensures |Rule| > 0 && IsRun(Rule) && Rule[0] == '=' && '\n' !in Rule
  {
  }

  /** Putting a block on lines of its own creates no occurrence of a one-line marker. */
  lemma PaddedAbsent(b: string, sub: string)
    requires |sub| > 0 && !Contains(b, sub) && '\n' !in sub
    ensures !Contains(Padded(b), sub)
  {
    var p := Padded(b);
    assert p[1..|p| - 1] == b;
    forall k | 0 <= k && k + |sub| <= |p| ensures !OccursAt(p, sub, k) {
      if k == 0 {
        assert p[k..k + |sub|][0] == '\n' && sub[0] in sub;
      } else if k + |sub| == |p| {
        assert p[k..k + |sub|][|sub| - 1] == '\n' && sub[|sub| - 1] in sub;
      } else {
        SliceOfSlice(p, 1, |p| - 1, k - 1, k - 1 + |sub|);
        assert !OccursAt(b, sub, k - 1);
      }
    }
  }

  /** A padded block without the rule is a clean piece for splitting on the rule. */
  lemma PaddedClean(b: string)
    requires !Contains(b, Rule)
    ensures CleanPiece(Padded(b), Rule)
  {
    RuleShape();
    PaddedAbsent(b, Rule);
    assert Padded(b)[|Padded(b)| - 1] == '\n';
  }

  /** Every raw block of a rendered digest is a clean piece. */
  lemma {:induction false} PiecesClean(jobs: seq<JobRecord>)
    requires forall i :: 0 <= i < |jobs| ==> WellFormed(jobs[i])
    ensures forall i :: 0 <= i < |Pieces(jobs)| ==> CleanPiece(Pieces(jobs)[i], Rule)
    decreases |jobs|
  {
    if |jobs| > 0 {
      PaddedClean(JobBlock(jobs[0]));
      PaddedClean(DetailBlock(jobs[0]));
      TailWellFormed(jobs);
      PiecesClean(jobs[1..]);
      CleanCons(Padded(JobBlock(jobs[0])), Padded(DetailBlock(jobs[0])), Pieces(jobs[1..]));
    }
  }

  lemma TailWellFormed(jobs: seq<JobRecord>)
    requires |jobs| > 0 && forall i :: 0 <= i < |jobs| ==> WellFormed(jobs[i])
    ensures forall i :: 0 <= i < |jobs[1..]| ==> WellFormed(jobs[1..][i])
  {
    assert forall i :: 0 <= i < |jobs[1..]| ==> jobs[1..][i] == jobs[i + 1];
  }

  lemma CleanCons(a: string, b: string, rest: seq<string>)
    requires CleanPiece(a, Rule) && CleanPiece(b, Rule)
    requires forall i :: 0 <= i < |rest| ==> CleanPiece(rest[i], Rule)
    ensures forall i :: 0 <= i < |[a, b] + rest| ==> CleanPiece(([a, b] + rest)[i], Rule)
  {
    assert forall i :: 2 <= i < |[a, b] + rest| ==> ([a, b] + rest)[i] == rest[i - 2];
  }

  /** Splitting a rendered digest on the rule gives back its raw blocks when they are clean pieces. */
  lemma SplitRender(jobs: seq<JobRecord>)
    requires |jobs| > 0
    requires forall i :: 0 <= i < |Pieces(jobs)| ==> CleanPiece(Pieces(jobs)[i], Rule)
    ensures Split(Render(jobs), Rule) == Pieces(jobs)
  {
    SplitOfCleanPieces(Pieces(jobs), Render(jobs));
  }

  lemma SplitOfCleanPieces(xs: seq<string>, text: string)
    requires |xs| > 0 && forall i :: 0 <= i < |xs| ==> CleanPiece(xs[i], Rule)
    requires text == Join(xs, Rule)
    ensures Split(text, Rule) == xs
  {
    RuleShape();
    SplitOfJoin(xs, Rule);
  }

  /** A job's two raw blocks parse back to the job, ahead of whatever the remaining blocks give. */
  lemma PairRoundTrip(j: JobRecord, rest: seq<string>)
    requires WellFormed(j)
    ensures ParseBlocks([Padded(JobBlock(j)), Padded(DetailBlock(j))] + rest) == Prepend(j, ParseBlocks(rest))
  {
    var blocks := [Padded(JobBlock(j)), Padded(DetailBlock(j))] + rest;
    JobBlockStrips(j);
    JobBlockShape(j);
    HeaderRoundTrip(j);
    assert blocks[2..] == rest;
    JobBlockPair(blocks);
    JobBlockLinks(j);
    DetailRoundTrip(j);
  }

  /** The padded JOB block strips back to the JOB block. */
  lemma JobBlockStrips(j: JobRecord)
    requires WellFormed(j)
    ensures Strip(Padded(JobBlock(j))) == JobBlock(j)
  {
    JobBlockShape(j);
    LineBreaksAreSpace();
    StripPadded("\n", JobBlock(j), "\n");
  }

  /** The raw blocks of a rendered digest parse back to the jobs. */
  lemma {:induction false} PiecesRoundTrip(jobs: seq<JobRecord>)
    requires forall i :: 0 <= i < |jobs| ==> WellFormed(jobs[i])
    ensures ParseBlocks(Pieces(jobs)) == Ok(jobs)
    decreases |jobs|
  {
    if |jobs| > 0 {
      assert Pieces(jobs) == [Padded(JobBlock(jobs[0])), Padded(DetailBlock(jobs[0]))] + Pieces(jobs[1..]);
      PairRoundTrip(jobs[0], Pieces(jobs[1..]));
      TailWellFormed(jobs);
      PiecesRoundTrip(jobs[1..]);
      HeadTail(jobs);
    }
  }

  /**
   Parsing a rendered digest gives back the jobs, in order, for every list of
   well-formed records; the empty list renders to the empty digest, which
   parses to no jobs.
   */
  lemma RoundTrip(jobs: seq<JobRecord>)
    requires forall i :: 0 <= i < |jobs| ==> WellFormed(jobs[i])
    ensures ParseDigest(Render(jobs)) == Ok(jobs)
  {
    if |jobs| == 0 {
      EmptyDigest();
    } else {
      PiecesClean(jobs);
      SplitRender(jobs);
      PiecesRoundTrip(jobs);
    }
  }

  /** The empty digest holds no jobs. */
  lemma EmptyDigest()
    ensures ParseDigest(Render([])) == Ok([])
  {
    var none: string := [];
    RuleShape();
    assert Render([]) == none;
    assert Find(none, Rule) == -1;
    assert Split(none, Rule) == [none];
    SkipBlock([none]);
    assert [none][1..] == [];
  }
}

=== FILE: download.dfy ===
/**
 The pure parts of the resume download endpoint: the filename filter
 `sanitize_filename`, the `"Title at Company — Location resume.pdf"` name built
 from the request, the 400 reply for a request without a resume, and the
 per-line story that `resume_to_pdf` hands to the PDF builder (blank lines
 become spacers, other lines escaped paragraphs). Page layout and the PDF bytes
 themselves are not modelled.
 */
module Download {
  import opened Wrappers
  import opened PyStr

  // ---------------------------------------------------------------------
  // sanitize_filename
  // ---------------------------------------------------------------------

  /** The characters of the class `[<>:"/\\|?*]` that the filename filter deletes. */
  predicate Forbidden(c: char) {
    || c == '<' || c == '>' || c == ':' || c == '"' || c == '/'
    || c == '\\' || c == '|' || c == '?' || c == '*'
  }

  ghost predicate NoForbidden(s: string) {
    forall k :: 0 <= k < |s| ==> !Forbidden(s[k])
  }

  /** `re.sub(r'[<>:"/\\|?*]', "", s)`: the other characters, in order. */
  function RemoveForbidden(s: string): (r: string)
    ensures NoForbidden(r)
    ensures forall c :: c in r <==> c in s && !Forbidden(c)
    ensures NoForbidden(s) ==> r == s
    decreases |s|
  {
    if |s| == 0 then []
    else
      var rest := RemoveForbidden(s[1..]);
      HeadTail(s);
      Keep(s[0]) + rest
  }

  /** One character through the filter. */
  function Keep(c: char): string {
    if Forbidden(c) then [] else [c]
  }

  lemma RemoveForbiddenUnfold(s: string)
    requires |s| > 0
    ensures RemoveForbidden(s) == Keep(s[0]) + RemoveForbidden(s[1..])
  {
  }

  /** The filter deletes character by character, so kept characters keep their order. */
  lemma {:induction false} RemoveForbiddenConcat(a: string, b: string)
    ensures RemoveForbidden(a + b) == RemoveForbidden(a) + RemoveForbidden(b)
    decreases |a|
  {
    if |a| == 0 {
      assert a + b == b;
    } else {
      assert (a + b)[0] == a[0];
      assert (a + b)[1..] == a[1..] + b;
      RemoveForbiddenUnfold(a + b);
      RemoveForbiddenUnfold(a);
      RemoveForbiddenConcat(a[1..], b);
      AppendAssoc(Keep(a[0]), RemoveForbidden(a[1..]), RemoveForbidden(b));
    }
  }

  /** The fallback name used when nothing is left after filtering and trimming. */
  const Fallback: string := "resume"

  /**
   `sanitize_filename`: delete the forbidden characters, trim, and fall back to
   "resume" when nothing is left. The result is never empty, holds no forbidden
   character and no surrounding whitespace. Otherwise it is the trimmed text of
   the name's permitted characters, in their order, so it is made of the name's
   own characters, and a name that is already clean comes back unchanged.
   */
  function SanitizeFilename(name: string): (r: string)
    ensures r != [] && NoForbidden(r) && IsStripped(r)
    ensures AllSpace(RemoveForbidden(name)) ==> r == Fallback
    ensures !AllSpace(RemoveForbidden(name)) ==> r == Strip(RemoveForbidden(name))
    ensures !AllSpace(RemoveForbidden(name)) ==> forall c :: c in r ==> c in name
    ensures name != [] && NoForbidden(name) && IsStripped(name) ==> r == name
  {
    var kept := RemoveForbidden(name);
    var t := Strip(kept);
    StripEmptyIff(kept);
    if t == [] then FallbackClean(); Fallback
    else
      StripChars(kept);
      StripKeepsClean(kept);
      CleanNameKept(name);
      t
  }

  lemma FallbackClean()
    ensures Fallback != [] && NoForbidden(Fallback) && IsStripped(Fallback)
  {
  }

  /** Stripping a text without forbidden characters leaves none. */
  lemma StripKeepsClean(s: string)
    requires NoForbidden(s)
    ensures NoForbidden(Strip(s))
  {
    var i := LeadingSpace(s);
    forall k | 0 <= k < |Strip(s)| ensures !Forbidden(Strip(s)[k]) {
      assert Strip(s)[k] == s[i + k];
    }
  }

  lemma CleanNameKept(name: string)
    ensures NoForbidden(name) && IsStripped(name) ==> Strip(RemoveForbidden(name)) == name
  {
    if NoForbidden(name) && IsStripped(name) {
      StripOfStripped(name);
    }
  }

  /** Stripping only removes characters. */
  lemma StripChars(s: string)
    ensures forall c :: c in Strip(s) ==> c in s
  {
    var i := LeadingSpace(s);
    forall c | c in Strip(s) ensures c in s {
      var k :| 0 <= k < |Strip(s)| && Strip(s)[k] == c;
      assert s[i + k] == c;
    }
  }

  /** Sanitising twice is the same as sanitising once. */
  lemma {:induction false} SanitizeIdempotent(name: string)
    ensures SanitizeFilename(SanitizeFilename(name)) == SanitizeFilename(name)
  {
    var r := SanitizeFilename(name);
    assert r != [] && NoForbidden(r) && IsStripped(r);
  }

  // ---------------------------------------------------------------------
  // Filename assembly
  // ---------------------------------------------------------------------

  /** The suffix every download name carries. */
  const PdfSuffix: string := " resume.pdf"

  /** Whether a field is present: 1 for a non-empty string, 0 for the empty one. */
  function Present(s: string): nat {
    if s == [] then 0 else 1
  }

  /**
   The non-empty parts of the name: the title, `"at " + company`, `"— " + location`.
   There is one part per present field, and each present field's part sits
   after the parts of the present fields before it.
   */
  function NameParts(title: string, company: string, location: string): (r: seq<string>)
    ensures |r| == Present(title) + Present(company) + Present(location)
    ensures forall i :: 0 <= i < |r| ==> r[i] != []
    ensures title != [] ==> r[0] == title
    ensures company != [] ==> r[Present(title)] == "at " + company
    ensures location != [] ==> r[|r| - 1] == "\U{2014} " + location
  {
    (if title != [] then [title] else [])
    + (if company != [] then ["at " + company] else [])
    + (if location != [] then ["\U{2014} " + location] else [])
  }

  /** `" ".join(parts) if parts else "resume"`. */
  function BaseName(title: string, company: string, location: string): (r: string)
    ensures r != []
    ensures title == [] && company == [] && location == [] ==> r == Fallback
  {
    var parts := NameParts(title, company, location);
    if parts == [] then Fallback
    else
      assert parts[0] != [];
      JoinFirst(parts, " ");
      Join(parts, " ")
  }

  /** With all three fields present the base name reads `Title at Company — Location`. */
  lemma BaseNameAll(title: string, company: string, location: string)
    requires title != [] && company != [] && location != []
    ensures BaseName(title, company, location) == title + " at " + company + " \U{2014} " + location
  {
    var parts := NameParts(title, company, location);
    assert parts == [title, "at " + company, "\U{2014} " + location];
    assert parts[1..] == ["at " + company, "\U{2014} " + location];
    assert parts[1..][1..] == ["\U{2014} " + location];
    assert Join(parts[1..][1..], " ") == "\U{2014} " + location;
    assert Join(parts[1..], " ") == "at " + company + " " + ("\U{2014} " + location);
    assert Join(parts, " ") == title + " " + ("at " + company + " " + ("\U{2014} " + location));
  }

  /**
   The other five combinations of present fields: the present parts, in the
   order title, company, location, joined by single spaces.
   */
  lemma BaseNameCases(title: string, company: string, location: string)
    ensures title == [] && company != [] && location == [] ==>
      BaseName(title, company, location) == "at " + company
    ensures title == [] && company == [] && location != [] ==>
      BaseName(title, company, location) == "\U{2014} " + location
    ensures title != [] && company != [] && location == [] ==>
      BaseName(title, company, location) == title + " at " + company
    ensures title != [] && company == [] && location != [] ==>
      BaseName(title, company, location) == title + " \U{2014} " + location
    ensures title == [] && company != [] && location != [] ==>
      BaseName(title, company, location) == "at " + company + " \U{2014} " + location
  {
    var parts := NameParts(title, company, location);
    if Present(title) + Present(company) + Present(location) == 2 {
      assert parts == [parts[0], parts[1]];
      JoinTwo(parts[0], parts[1], " ");
    } else if Present(title) + Present(company) + Present(location) == 1 {
      assert parts == [parts[0]];
    }
  }

  /** The join of two pieces. */
  lemma JoinTwo(a: string, b: string, sep: string)
    ensures Join([a, b], sep) == a + sep + b
  {
    assert [a, b][1..] == [b];
  }

  /** A single present field gives its part alone. */
  lemma BaseNameTitleOnly(title: string)
    requires title != []
    ensures BaseName(title, [], []) == title
  {
    assert NameParts(title, [], []) == [title];
  }

  /** `f"{sanitize_filename(base_name)} resume.pdf"`. */
  function DownloadName(title: string, company: string, location: string): (r: string)
    ensures |r| > |PdfSuffix| && r[|r| - |PdfSuffix|..] == PdfSuffix
    ensures r[..|r| - |PdfSuffix|] == SanitizeFilename(BaseName(title, company, location))
    ensures NoForbidden(r)
  {
    var stem := SanitizeFilename(BaseName(title, company, location));
    SuffixClean();
    WithSuffix(stem, PdfSuffix);
    stem + PdfSuffix
  }

  lemma SuffixClean()
    ensures NoForbidden(PdfSuffix)
  {
  }

  /** The two halves of `stem + suffix`, and its characters. */
  lemma WithSuffix(stem: string, suffix: string)
    requires NoForbidden(stem) && NoForbidden(suffix)
    ensures var r := stem + suffix; r[|r| - |suffix|..] == suffix && r[..|r| - |suffix|] == stem && NoForbidden(r)
  {
    var r := stem + suffix;
    assert r[|r| - |suffix|..] == suffix;
    assert r[..|r| - |suffix|] == stem;
    forall k | 0 <= k < |r| ensures !Forbidden(r[k]) {
      if k < |stem| { assert r[k] == stem[k]; } else { assert r[k] == suffix[k - |stem|]; }
    }
  }

  // ---------------------------------------------------------------------
  // resume_to_pdf: the story
  // ---------------------------------------------------------------------

  /** One element of the PDF story: a 6-point spacer or a paragraph of markup. */
  datatype StoryItem = Spacer | Para(markup: string)

  /** Character-wise markup escaping: `&` to `&amp;`, `<` to `&lt;`, anything else kept. */
  function EscapeChars(s: string): (r: string)
    ensures '<' !in r
    decreases |s|
  {
    if |s| == 0 then [] else EscapeOne(s[0]) + EscapeChars(s[1..])
  }

  /** The markup for one character. */
  function EscapeOne(c: char): string {
    if c == '&' then "&amp;" else if c == '<' then "&lt;" else [c]
  }

  lemma EscapeCharsUnfold(s: string)
    requires |s| > 0
    ensures EscapeChars(s) == EscapeOne(s[0]) + EscapeChars(s[1..])
  {
  }

  /**
   `line.replace("&", "&amp;").replace("<", "&lt;")`. Because `&` is replaced
   first, the `&` of each `&lt;` is not escaped again: the two passes are the
   one-pass character-wise escape, leave no raw `<`, and can be undone.
   */
  function Escape(s: string): (r: string)
    ensures r == EscapeChars(s)
    ensures '<' !in r
    ensures Unescape(r) == s
  {
    TwoPassEscape(s);
    UnescapeEscape(s);
    ReplaceChar(ReplaceChar(s, '&', "&amp;"), '<', "&lt;")
  }

  lemma {:induction false} TwoPassEscape(s: string)
    ensures ReplaceChar(ReplaceChar(s, '&', "&amp;"), '<', "&lt;") == EscapeChars(s)
    decreases |s|
  {
    if |s| > 0 {
      var x, rest := s[0], s[1..];
      assert s == [x] + rest;
      var once := if x == '&' then "&amp;" else [x];
      assert ReplaceChar([x], '&', "&amp;") == once;
      ReplaceCharConcat([x], rest, '&', "&amp;");
      ReplaceCharConcat(once, ReplaceChar(rest, '&', "&amp;"), '<', "&lt;");
      if x == '&' {
        ReplaceCharAbsent("&amp;", '<', "&lt;");
      } else {
        assert ReplaceChar([x], '<', "&lt;") == if x == '<' then "&lt;" else [x];
      }
      TwoPassEscape(rest);
    }
  }

  /** Markup decoding of the two entities the escape produces, left to right. */
  function Unescape(s: string): string
    decreases |s|
  {
    if |s| == 0 then []
    else if StartsWith(s, "&amp;") then "&" + Unescape(s[5..])
    else if StartsWith(s, "&lt;") then "<" + Unescape(s[4..])
    else [s[0]] + Unescape(s[1..])
  }

  lemma {:induction false} UnescapeEscape(s: string)
    ensures Unescape(EscapeChars(s)) == s
    decreases |s|
  {
    if |s| > 0 {
      var tail := EscapeChars(s[1..]);
      EscapeCharsUnfold(s);
      UnescapeEscape(s[1..]);
      UnescapeOne(s[0], tail);
      HeadTail(s);
    }
  }

  /** Decoding the markup of one character gives that character back, whatever follows. */
  lemma UnescapeOne(x: char, tail: string)
    ensures Unescape(EscapeOne(x) + tail) == [x] + Unescape(tail)
  {
    if x == '&' {
      UnescapeAmp(tail);
    } else if x == '<' {
      UnescapeLt(tail);
    } else {
      UnescapePlain(x, tail);
    }
  }

  lemma UnescapeAmp(tail: string)
    ensures Unescape("&amp;" + tail) == "&" + Unescape(tail)
  {
    var e := "&amp;" + tail;
    assert e[..5] == "&amp;" && e[5..] == tail;
  }

  lemma UnescapeLt(tail: string)
    ensures Unescape("&lt;" + tail) == "<" + Unescape(tail)
  {
    var e := "&lt;" + tail;
    assert e[..4] == "&lt;" && e[4..] == tail;
    assert e[1] != "&amp;"[1];
  }

  lemma UnescapePlain(x: char, tail: string)
    requires x != '&' && x != '<'
    ensures Unescape([x] + tail) == [x] + Unescape(tail)
  {
    var e := [x] + tail;
    assert e[0] != '&' && e[0] != "&lt;"[0];
    assert e[1..] == tail;
  }

  /** What `resume_to_pdf` appends for one line. */
  function StoryItemOf(line: string): (r: StoryItem)
    ensures r.Spacer? <==> AllSpace(line)
    ensures r.Para? ==> '<' !in r.markup && Unescape(r.markup) == Strip(line) && Strip(line) != []
    ensures r.Para? ==> r.markup == EscapeChars(Strip(line))
  {
    var t := Strip(line);
    StripEmptyIff(line);
    if t == [] then Spacer else Para(Escape(t))
  }

  /** The story for a list of lines: exactly one item per line, in order. */
  function StoryOf(lines: seq<string>): (r: seq<StoryItem>)
    ensures |r| == |lines|
    ensures forall i :: 0 <= i < |r| ==> r[i] == StoryItemOf(lines[i])
    decreases |lines|
  {
    if |lines| == 0 then []
    else
      var n := |lines| - 1;
      var init := StoryOf(lines[..n]);
      init + [StoryItemOf(lines[n])]
  }

  /** The story of a resume text, whose lines are its `"\n"`-separated pieces. */
  function ResumeStory(text: string): (r: seq<StoryItem>)
    ensures |r| == |Split(text, "\n")|
    ensures forall i :: 0 <= i < |r| ==> r[i] == StoryItemOf(Split(text, "\n")[i])
  {
    StoryOf(Split(text, "\n"))
  }

  /** The `for line in resume_text.split("\n")` loop, appending one item per line. */
  method StoryLoop(lines: seq<string>) returns (story: seq<StoryItem>)
    ensures story == StoryOf(lines)
  {
    story := [];
    for i := 0 to |lines|
      invariant story == StoryOf(lines[..i])
    {
      StoryOfSnoc(lines, i);
      ItemOfLine(lines[i]);
      var line := Strip(lines[i]);
      if line == [] {
        story := story + [Spacer];
      } else {
        story := story + [Para(Escape(line))];
      }
    }
    assert lines[..|lines|] == lines;
  }

  lemma StoryOfSnoc(lines: seq<string>, i: nat)
    requires i < |lines|
    ensures StoryOf(lines[..i + 1]) == StoryOf(lines[..i]) + [StoryItemOf(lines[i])]
  {
    assert lines[..i + 1][..i] == lines[..i];
  }

  lemma ItemOfLine(line: string)
    ensures StoryItemOf(line) == if Strip(line) == [] then Spacer else Para(Escape(Strip(line)))
  {
  }

  // ---------------------------------------------------------------------
  // download_resume
  // ---------------------------------------------------------------------

  /** The reply of the download endpoint. */
  datatype Reply =
    | BadRequest(status: int, message: string)
    | PdfAttachment(filename: string, story: seq<StoryItem>)

  const MissingResume: string := "Missing resume content"

  /** `data.get(key, "")`. */
  function Get(data: map<string, string>, key: string): (r: string)
    ensures key in data ==> r == data[key]
    ensures key !in data ==> r == []
  {
    if key in data then data[key] else []
  }

  /**
   `download_resume` for a JSON body of string fields (`None` when there is no
   body): a 400 reply when it is missing or has no `"resume"`; otherwise the
   assembled filename and the story of the resume text.
   */
  function DownloadResume(data: Option<map<string, string>>): (r: Reply)
    ensures r.BadRequest? <==> data.None? || "resume" !in data.value
    ensures r.BadRequest? ==> r.status == 400 && r.message == MissingResume
    ensures r.PdfAttachment? ==>
      r.filename == DownloadName(Get(data.value, "title"), Get(data.value, "company"), Get(data.value, "location"))
      && r.story == ResumeStory(data.value["resume"])
  {
    if data.None? || |data.value| == 0 || "resume" !in data.value then BadRequest(400, MissingResume)
    else
      var d := data.value;
      PdfAttachment(DownloadName(Get(d, "title"), Get(d, "company"), Get(d, "location")), ResumeStory(d["resume"]))
  }

  /** Every successful download is named `… resume.pdf` and holds one story item per line. */
  lemma DownloadShape(data: Option<map<string, string>>)
    requires DownloadResume(data).PdfAttachment?
    ensures var r := DownloadResume(data);
      r.filename[|r.filename| - |PdfSuffix|..] == PdfSuffix
      && |r.story| == |Split(data.value["resume"], "\n")|
  {
  }
}

=== FILE: link_key.dfy ===
/**
 The identity of a job link. Alert links are carried as `"<anchor text> — <href>"`;
 `url_from_link` recovers the href, which is the key of the seen-job store.
 */
module LinkKey {
  import opened PyStr

  /** The separator between anchor text and URL: space, EM DASH (U+2014), space. */
  const Sep: string := " \U{2014} "

  /** `f"{text} — {href}"`: how a link is written out when it is extracted from an alert email. */
  function FormatLink(text: string, href: string): (r: string)
    ensures |r| == |text| + |Sep| + |href|
    ensures OccursAt(r, Sep, |text|)
  {
    var r := text + Sep + href;
    assert r[|text|..|text| + |Sep|] == Sep;
    r
  }

  /**
   `url_from_link`: with the separator present, the trimmed text after its last
   occurrence; without it, the link itself, untrimmed.
   */
  function UrlFromLink(link: string): (r: string)
    ensures Contains(link, Sep) ==>
      forall k :: IsLastOccurrence(link, Sep, k) ==> r == Strip(link[k + |Sep|..])
    ensures !Contains(link, Sep) ==> r == link
    ensures Contains(link, Sep) ==> IsStripped(r) && !Contains(r, Sep)
  {
    if Contains(link, Sep) then
      var k := RFind(link, Sep);
      NothingAfterLast(link, Sep, k);
      StripKeepsAbsence(link[k + |Sep|..], Sep);
      assert forall k' :: IsLastOccurrence(link, Sep, k') ==> k' == k;
      Strip(link[k + |Sep|..])
    else link
  }

  /** A URL key is its own key: feeding a stored URL back as a bare link finds the same entry. */
  lemma UrlFromLinkIdempotent(link: string)
    ensures UrlFromLink(UrlFromLink(link)) == UrlFromLink(link)
  {
  }

  /**
   Whatever the anchor text, a link written as `text — href` with a whitespace-free
   href has key `href`. So a job announced again under different anchor text keeps
   the same key.
   */
  lemma UrlOfFormattedLink(text: string, href: string)
    requires NoSpace(href)
    ensures UrlFromLink(FormatLink(text, href)) == href
  {
    var s := FormatLink(text, href);
    LastSepOfFormatted(text, href);
    assert Contains(s, Sep);
    assert UrlFromLink(s) == Strip(s[|text| + |Sep|..]);
    assert s[|text| + |Sep|..] == href;
    StripOfStripped(href);
  }

  /** In `text — href` with a whitespace-free href, the separator written last is the last one. */
  lemma LastSepOfFormatted(text: string, href: string)
    requires NoSpace(href)
    ensures IsLastOccurrence(FormatLink(text, href), Sep, |text|)
  {
    var s := FormatLink(text, href);
    var p := |text|;
    assert s[p + 1] == '\U{2014}' by {
      assert s[p..p + |Sep|][1] == s[p + 1];
    }
    forall k | p < k ensures !OccursAt(s, Sep, k) {
      if k + |Sep| <= |s| {
        if k == p + 1 {
          assert s[k..k + |Sep|][0] != Sep[0];
        } else {
          assert s[k + 2] == href[k + 2 - p - |Sep|];
          assert !IsSpace(s[k + 2]);
          assert s[k..k + |Sep|][2] != Sep[2];
        }
      }
    }
  }
}

=== FILE: pipeline.dfy ===
/**
 The two entry points that drive a run: `run_pipeline` (behind the web UI's
 fetch button) and the command-line script. Both collect the deduplicated alert
 links, drop those whose URL key is in the seen store, hand the rest to the
 digest generator, and mark them as seen. Gmail, the generator and the JSON
 store are outside the model: the collected links, the loaded store and the
 generator are parameters, and writes to the store appear as values. Neither
 entry point catches an exception from the generator, so a failed generation
 ends the run before anything is written.
 */
module Pipeline {
  import opened Wrappers
  import opened PyStr
  import opened LinkKey
  import opened SeenStore
  import opened DigestParser

  /**
   The generator: master resume and newline-joined links in, digest text out,
   or `None` when the call raises.
   */
  type Generator = (string, string) -> Option<string>

  const NoAlertsMessage: string := "No new alerts today."
  const AllSeenMessage: string := "No new jobs (all already seen)."
  const MissingResumeMessage: string := "Master resume not found. Create 'master_resume.txt' in the project folder."

  /** What the generator is given: the new links, one per line. */
  function JobText(newLinks: seq<string>): string {
    Join(newLinks, "\n")
  }

  // ---------------------------------------------------------------------
  // run_pipeline
  // ---------------------------------------------------------------------

  /**
   How `run_pipeline` ends: it returns `(digest, jobs, error)`, or the parser's
   error propagates out of it, or the generator's exception does.
   */
  datatype Outcome =
    | Returned(digest: Option<string>, jobs: seq<JobRecord>, error: Option<string>)
    | Raised(failure: ParseError)
    | GenerationRaised

  /** A run's outcome and the store it wrote, if it reached `save_seen_jobs`. */
  datatype Run = Run(outcome: Outcome, saved: Option<set<string>>)

  /**
   `run_pipeline`. `setupError` is the message of a `FileNotFoundError` raised
   while building the Gmail service; `resume` is the master resume, `None` when
   its file is missing. `collected` is every link extracted from the alerts, and
   `seen` the loaded store.
   */
  function RunPipeline(setupError: Option<string>, resume: Option<string>, collected: seq<string>,
                       seen: set<string>, generate: Generator): (r: Run)
    ensures r.saved.Some? <==>
      setupError.None? && resume.Some? && FilterNew(Dedupe(collected), seen) != []
      && generate(resume.value, JobText(FilterNew(Dedupe(collected), seen))).Some?
      && ParseDigest(generate(resume.value, JobText(FilterNew(Dedupe(collected), seen))).value).Ok?
    ensures r.saved.Some? ==> r.saved.value == seen + Keys(collected)
    ensures r.saved.Some? ==>
      var digest := generate(resume.value, JobText(FilterNew(Dedupe(collected), seen))).value;
      r.outcome == Returned(Some(digest), ParseDigest(digest).value, None)
    ensures r.outcome.GenerationRaised? <==>
      setupError.None? && resume.Some? && FilterNew(Dedupe(collected), seen) != []
      && generate(resume.value, JobText(FilterNew(Dedupe(collected), seen))).None?
    ensures r.outcome.GenerationRaised? ==> r.saved.None?
    ensures r.outcome.Returned? && r.outcome.error.Some? ==>
      r.outcome.digest.None? && r.outcome.jobs == [] && r.saved.None?
  {
    if setupError.Some? then Run(Returned(None, [], setupError), None)
    else if resume.None? then Run(Returned(None, [], Some(MissingResumeMessage)), None)
    else
      var links := Dedupe(collected);
      match FilterStep(links, seen)
      case NoAlerts => Run(Returned(None, [], Some(NoAlertsMessage)), None)
      case NoNew => Run(Returned(None, [], Some(AllSeenMessage)), None)
      case Fresh(newLinks, marked) =>
        match generate(resume.value, JobText(newLinks))
        case None => Run(GenerationRaised, None)
        case Some(digest) =>
          match ParseDigest(digest)
          case Err(e) => Run(Raised(e), None)
          case Ok(jobs) =>
            FreshMarksEveryLink(links, seen);
            DedupeKeys(collected);
            Run(Returned(Some(digest), jobs, None), Some(marked))
  }

  /** Deduplicating does not change which URL keys a list of links has. */
  lemma DedupeKeys(xs: seq<string>)
    ensures Keys(Dedupe(xs)) == Keys(xs)
  {
  }

  /** The early exits and the message each returns. */
  lemma PipelineEarlyExits(setupError: Option<string>, resume: Option<string>, collected: seq<string>,
                           seen: set<string>, generate: Generator)
    ensures var r := RunPipeline(setupError, resume, collected, seen, generate);
      && (setupError.Some? ==> r == Run(Returned(None, [], setupError), None))
      && (setupError.None? && resume.None? ==> r == Run(Returned(None, [], Some(MissingResumeMessage)), None))
      && (setupError.None? && resume.Some? && collected == [] ==> r == Run(Returned(None, [], Some(NoAlertsMessage)), None))
      && (setupError.None? && resume.Some? && collected != [] && (forall l :: l in collected ==> UrlFromLink(l) in seen)
          ==> r == Run(Returned(None, [], Some(AllSeenMessage)), None))
  {
    if collected != [] {
      assert collected[0] in Dedupe(collected);
    }
  }

  /** A parse failure propagates out of the run and the store is not written. */
  lemma PipelineRaisesWithoutSaving(setupError: Option<string>, resume: Option<string>, collected: seq<string>,
                                    seen: set<string>, generate: Generator)
    requires setupError.None? && resume.Some? && FilterNew(Dedupe(collected), seen) != []
    requires generate(resume.value, JobText(FilterNew(Dedupe(collected), seen))).Some?
    requires ParseDigest(generate(resume.value, JobText(FilterNew(Dedupe(collected), seen))).value).Err?
    ensures var r := RunPipeline(setupError, resume, collected, seen, generate);
      r.outcome.Raised? && r.saved.None?
  {
  }

  /** Running again with the store a successful run wrote finds every link already seen. */
  lemma PipelineRerunFindsNothing(setupError: Option<string>, resume: Option<string>, collected: seq<string>,
                                  seen: set<string>, generate: Generator)
    requires RunPipeline(setupError, resume, collected, seen, generate).saved.Some?
    ensures var saved := RunPipeline(setupError, resume, collected, seen, generate).saved.value;
      RunPipeline(setupError, resume, collected, saved, generate) == Run(Returned(None, [], Some(AllSeenMessage)), None)
  {
    var saved := RunPipeline(setupError, resume, collected, seen, generate).saved.value;
    var links := Dedupe(collected);
    StepIdempotent(links, seen);
    FreshMarksEveryLink(links, seen);
    DedupeKeys(collected);
    assert FilterStep(links, seen).marked == saved;
  }

  // ---------------------------------------------------------------------
  // The command-line script
  // ---------------------------------------------------------------------

  /** The observable actions of the script, in order, leaving out the print inside the Gmail listing. */
  datatype Effect =
    | Print(text: string)
    | SendEmail(digest: string)
    | SaveSeen(store: set<string>)
    | Exit(status: int)
    | Crash  // an uncaught exception ends the script with a traceback

  const MainMissingResumeMessage: string :=
    "Master resume not found. Create 'master_resume.txt' in the project folder with your full resume (skills, experience, education, etc.)."
  const MainAllSeenMessage: string := "No new jobs (all already sent). Skipping email."
  const SentMessage: string := "Daily job digest with tailored resumes sent!"

  ghost predicate Saves(effects: seq<Effect>) {
    exists i :: 0 <= i < |effects| && effects[i].SaveSeen?
  }

  ghost predicate Exits(effects: seq<Effect>) {
    exists i :: 0 <= i < |effects| && effects[i].Exit?
  }

  ghost predicate Sends(effects: seq<Effect>) {
    exists i :: 0 <= i < |effects| && effects[i].SendEmail?
  }

  ghost predicate Crashes(effects: seq<Effect>) {
    exists i :: 0 <= i < |effects| && effects[i].Crash?
  }

  /**
   The script's `__main__` block: a missing master resume prints the error and
   exits with status 1; no alerts or no unseen links print a message and exit
   with status 0; a raising generator ends the script before anything is sent;
   otherwise the digest is emailed, then the store is saved, then the success
   line is printed.
   */
  function RunMain(resume: Option<string>, collected: seq<string>, seen: set<string>, generate: Generator): (r: seq<Effect>)
    ensures Saves(r) <==>
      resume.Some? && FilterNew(Dedupe(collected), seen) != []
      && generate(resume.value, JobText(FilterNew(Dedupe(collected), seen))).Some?
    ensures Sends(r) <==> Saves(r)
    ensures Crashes(r) <==>
      resume.Some? && FilterNew(Dedupe(collected), seen) != []
      && generate(resume.value, JobText(FilterNew(Dedupe(collected), seen))).None?
    ensures Exits(r) <==> !Saves(r) && !Crashes(r)
    ensures Exit(1) in r <==> resume.None?
    ensures forall i :: 0 <= i < |r| && r[i].SaveSeen? ==>
      r[i].store == seen + Keys(collected)
      && 0 < i && r[i - 1] == SendEmail(generate(resume.value, JobText(FilterNew(Dedupe(collected), seen))).value)
  {
    if resume.None? then Stop(MainMissingResumeMessage, 1)
    else
      var links := Dedupe(collected);
      match FilterStep(links, seen)
      case NoAlerts => Stop(NoAlertsMessage, 0)
      case NoNew => Stop(MainAllSeenMessage, 0)
      case Fresh(newLinks, marked) =>
        FreshMarksEveryLink(links, seen);
        DedupeKeys(collected);
        match generate(resume.value, JobText(newLinks))
        case None => Abort()
        case Some(digest) => Deliver(digest, marked)
  }

  /** `print(message); exit(status)`. */
  function Stop(message: string, status: int): (r: seq<Effect>)
    ensures !Saves(r) && !Sends(r) && !Crashes(r) && Exits(r)
    ensures forall i :: 0 <= i < |r| ==> !r[i].SendEmail?
    ensures Exit(1) in r <==> status == 1
  {
    var r := [Print(message), Exit(status)];
    assert r[1].Exit?;
    r
  }

  /** The generator raised: the script ends with nothing sent, saved or printed. */
  function Abort(): (r: seq<Effect>)
    ensures Crashes(r) && !Saves(r) && !Sends(r) && !Exits(r) && Exit(1) !in r
  {
    var r := [Crash];
    assert r[0].Crash?;
    r
  }

  /** Send the digest, save the store, report success. */
  function Deliver(digest: string, store: set<string>): (r: seq<Effect>)
    ensures Saves(r) && Sends(r) && !Crashes(r) && !Exits(r) && Exit(1) !in r
    ensures forall i :: 0 <= i < |r| && r[i].SaveSeen? ==> r[i].store == store && 0 < i && r[i - 1] == SendEmail(digest)
  {
    var r := [SendEmail(digest), SaveSeen(store), Print(SentMessage)];
    assert r[0].SendEmail? && r[1].SaveSeen?;
    r
  }

  /** A missing master resume stops the script before anything is sent or saved. */
  lemma MainMissingResume(collected: seq<string>, seen: set<string>, generate: Generator)
    ensures RunMain(None, collected, seen, generate) == [Print(MainMissingResumeMessage), Exit(1)]
  {
  }

  /** A raising generator ends the script with nothing sent, saved or printed. */
  lemma MainGeneratorRaises(resume: string, collected: seq<string>, seen: set<string>, generate: Generator)
    requires FilterNew(Dedupe(collected), seen) != []
    requires generate(resume, JobText(FilterNew(Dedupe(collected), seen))).None?
    ensures RunMain(Some(resume), collected, seen, generate) == [Crash]
  {
  }

  /** Running the script again with the store it saved sends nothing and saves nothing. */
  lemma MainRerunSkipsEmail(resume: Option<string>, collected: seq<string>, seen: set<string>, generate: Generator)
    requires Saves(RunMain(resume, collected, seen, generate))
    ensures RunMain(resume, collected, seen + Keys(collected), generate) == [Print(MainAllSeenMessage), Exit(0)]
  {
    var links := Dedupe(collected);
    StepIdempotent(links, seen);
    FreshMarksEveryLink(links, seen);
    DedupeKeys(collected);
  }

  /** Both entry points save the same store for the same inputs. */
  lemma EntryPointsAgree(resume: string, collected: seq<string>, seen: set<string>, generate: Generator, i: nat)
    requires RunPipeline(None, Some(resume), collected, seen, generate).saved.Some?
    requires i < |RunMain(Some(resume), collected, seen, generate)|
    requires RunMain(Some(resume), collected, seen, generate)[i].SaveSeen?
    ensures RunMain(Some(resume), collected, seen, generate)[i].store
         == RunPipeline(None, Some(resume), collected, seen, generate).saved.value
  {
  }
}

=== FILE: py_str.dfy ===
/**
 The fragment of Python's `str` API that the job-alert core relies on:
 `isspace`/`strip`, ASCII `upper`/`lower`, `startswith`, `in`, `find`,
 `rfind` (which is what `rsplit(sep, 1)` splits at), `split(sep)`,
 `sep.join`, slicing with Python's index normalisation, and single-character
 `replace`. Every helper states what it computes in terms of positions in
 its input, so that callers can reason without unfolding bodies.
 */
module PyStr {

  // ---------------------------------------------------------------------
  // Sequence identities, stated once so that proofs can cite them
  // ---------------------------------------------------------------------

  lemma HeadTail<T>(s: seq<T>)
    requires |s| > 0
    ensures [s[0]] + s[1..] == s
  {
  }

  lemma InitLast<T>(s: seq<T>)
    requires |s| > 0
    ensures s[..|s| - 1] + [s[|s| - 1]] == s
  {
  }

  lemma AppendAssoc<T>(x: seq<T>, y: seq<T>, z: seq<T>)
    ensures x + (y + z) == (x + y) + z
  {
  }

  /** Indexing into `a + b` within the first two elements of `a`, and dropping them. */
  lemma PairShift<T>(a: seq<T>, b: seq<T>)
    requires |a| >= 2
    ensures (a + b)[0] == a[0] && (a + b)[1] == a[1] && (a + b)[2..] == a[2..] + b
  {
  }

  // ---------------------------------------------------------------------
  // Whitespace and strip
  // ---------------------------------------------------------------------

  /** Python's `str.isspace()` for one code point: the 29 characters CPython treats as whitespace. */
  predicate IsSpace(c: char) {
    || ('\t' <= c <= '\r')
    || ('\U{1C}' <= c <= '\U{1F}')
    || c == ' '
    || c == '\U{85}'
    || c == '\U{A0}'
    || c == '\U{1680}'
    || ('\U{2000}' <= c <= '\U{200A}')
    || c == '\U{2028}'
    || c == '\U{2029}'
    || c == '\U{202F}'
    || c == '\U{205F}'
    || c == '\U{3000}'
  }

  /** Every character of `s` is whitespace (vacuously true of ""). */
  ghost predicate AllSpace(s: string) {
    forall k :: 0 <= k < |s| ==> IsSpace(s[k])
  }

  /** `s` has no whitespace at either end: `s.strip() == s`. */
  predicate IsStripped(s: string) {
    s == [] || (!IsSpace(s[0]) && !IsSpace(s[|s| - 1]))
  }

  /** `s` contains no whitespace character at all. */
  ghost predicate NoSpace(s: string) {
    forall k :: 0 <= k < |s| ==> !IsSpace(s[k])
  }

  /** How many whitespace characters open `s`. */
  function LeadingSpace(s: string): (n: nat)
    ensures n <= |s| && AllSpace(s[..n]) && (n == |s| || !IsSpace(s[n]))
    decreases |s|
  {
    if |s| > 0 && IsSpace(s[0]) then
      var m := LeadingSpace(s[1..]);
      assert s[..1 + m] == [s[0]] + s[1..][..m];
      1 + m
    else 0
  }

  /** The length of `s` once the whitespace that closes it is dropped. */
  function TrimmedLength(s: string): (n: nat)
    ensures n <= |s| && AllSpace(s[n..]) && (n == 0 || !IsSpace(s[n - 1]))
    decreases |s|
  {
    if |s| > 0 && IsSpace(s[|s| - 1]) then
      var m := TrimmedLength(s[..|s| - 1]);
      assert s[m..] == s[..|s| - 1][m..] + [s[|s| - 1]];
      m
    else |s|
  }

  /**
   `s.strip()`: the contiguous middle of `s` left after removing whitespace at
   both ends; the leading whitespace removed is `LeadingSpace(s)` characters.
   */
  function Strip(s: string): (r: string)
    ensures IsStripped(r)
    ensures var i := LeadingSpace(s);
      i + |r| <= |s| && r == s[i..i + |r|] && AllSpace(s[..i]) && AllSpace(s[i + |r|..])
  {
    var i := LeadingSpace(s);
    var n := TrimmedLength(s[i..]);
    StripMiddle(s, i, n);
    s[i..i + n]
  }

  /** The middle left between the leading and the closing whitespace is stripped. */
  lemma StripMiddle(s: string, i: nat, n: nat)
    requires i <= |s| && (i == |s| || !IsSpace(s[i]))
    requires n <= |s| - i && AllSpace(s[i..][n..]) && (n == 0 || !IsSpace(s[i..][n - 1]))
    ensures IsStripped(s[i..i + n]) && AllSpace(s[i + n..])
  {
    assert s[i + n..] == s[i..][n..];
    if n > 0 {
      assert s[i..i + n][n - 1] == s[i..][n - 1];
    }
  }

  /** Stripping a string that is already stripped changes nothing. */
  lemma StripOfStripped(s: string)
    requires IsStripped(s)
    ensures Strip(s) == s
  {
    assert LeadingSpace(s) == 0;
    assert s[0..] == s;
    assert TrimmedLength(s) == |s|;
  }

  /** Stripping is idempotent. */
  lemma StripIdempotent(s: string)
    ensures Strip(Strip(s)) == Strip(s)
  {
    StripOfStripped(Strip(s));
  }

  /** Whitespace put in front of `x` is all counted as leading whitespace. */
  lemma {:induction false} LeadingSkipsSpace(a: string, x: string)
    requires AllSpace(a)
    ensures LeadingSpace(a + x) == |a| + LeadingSpace(x)
    decreases |a|
  {
    if |a| > 0 {
      assert (a + x)[0] == a[0];
      assert (a + x)[1..] == a[1..] + x;
      LeadingSkipsSpace(a[1..], x);
    } else {
      assert a + x == x;
    }
  }

  /** Whitespace put after `x` is all dropped as closing whitespace. */
  lemma {:induction false} TrimmedSkipsSpace(x: string, b: string)
    requires AllSpace(b)
    ensures TrimmedLength(x + b) == TrimmedLength(x)
    decreases |b|
  {
    if |b| > 0 {
      assert (x + b)[|x + b| - 1] == b[|b| - 1];
      assert (x + b)[..|x + b| - 1] == x + b[..|b| - 1];
      TrimmedSkipsSpace(x, b[..|b| - 1]);
    } else {
      assert x + b == x;
    }
  }

  /** A stripped text surrounded by whitespace is recovered exactly by `strip()`. */
  lemma StripPadded(a: string, x: string, b: string)
    requires AllSpace(a) && AllSpace(b) && IsStripped(x)
    ensures Strip(a + x + b) == x
  {
    var s := a + x + b;
    assert s == a + (x + b);
    LeadingSkipsSpace(a, x + b);
    if x == [] {
      assert x + b == b + [];
      LeadingSkipsSpace(b, []);
      assert s[|s|..] == [];
    } else {
      assert LeadingSpace(x + b) == 0;
      assert s[|a|..] == x + b;
      TrimmedSkipsSpace(x, b);
      assert TrimmedLength(x) == |x|;
      assert s[|a|..|a| + |x|] == x;
    }
  }

  /** A stripped text after leading whitespace is recovered by `strip()`. */
  lemma StripLeading(a: string, x: string)
    requires AllSpace(a) && IsStripped(x)
    ensures Strip(a + x) == x
  {
    StripPadded(a, x, []);
    assert a + x + [] == a + x;
  }

  /** A string of whitespace strips to "" and only such strings do. */
  lemma StripEmptyIff(s: string)
    ensures Strip(s) == [] <==> AllSpace(s)
  {
    if AllSpace(s) {
      StripPadded(s, [], []);
      assert s + [] + [] == s;
    }
  }

  // ---------------------------------------------------------------------
  // ASCII case mapping
  // ---------------------------------------------------------------------

  function UpperChar(c: char): char {
    if 'a' <= c <= 'z' then (c as int - 32) as char else c
  }

  function LowerChar(c: char): char {
    if 'A' <= c <= 'Z' then (c as int + 32) as char else c
  }

  /** `s.upper()` restricted to ASCII letters: a length-preserving character map. */
  function Upper(s: string): (r: string)
    ensures |r| == |s|
    ensures forall k :: 0 <= k < |s| ==> r[k] == UpperChar(s[k])
  {
    seq(|s|, k requires 0 <= k < |s| => UpperChar(s[k]))
  }

  /** `s.lower()` restricted to ASCII letters: a length-preserving character map. */
  function Lower(s: string): (r: string)
    ensures |r| == |s|
    ensures forall k :: 0 <= k < |s| ==> r[k] == LowerChar(s[k])
  {
    seq(|s|, k requires 0 <= k < |s| => LowerChar(s[k]))
  }

  lemma UpperConcat(a: string, b: string)
    ensures Upper(a + b) == Upper(a) + Upper(b)
  {
    assert forall k :: 0 <= k < |a + b| ==> Upper(a + b)[k] == (Upper(a) + Upper(b))[k];
  }

  lemma UpperPrefix(s: string, n: nat)
    requires n <= |s|
    ensures Upper(s)[..n] == Upper(s[..n])
  {
  }

  lemma UpperSlice(s: string, i: nat, j: nat)
    requires i <= j <= |s|
    ensures Upper(s)[i..j] == Upper(s[i..j])
  {
  }

  /** A text without lower-case ASCII letters is its own upper case. */
  lemma UpperOfUpper(s: string)
    requires forall k :: 0 <= k < |s| ==> !('a' <= s[k] <= 'z')
    ensures Upper(s) == s
  {
  }

  // ---------------------------------------------------------------------
  // Prefixes, occurrences and search
  // ---------------------------------------------------------------------

  /** `s.startswith(p)`. */
  predicate StartsWith(s: string, p: string) {
    |p| <= |s| && s[..|p|] == p
  }

  /** `sub` occurs in `s` starting at index `k`. */
  predicate OccursAt(s: string, sub: string, k: int) {
    0 <= k && k + |sub| <= |s| && s[k..k + |sub|] == sub
  }

  /** `k` is the position of the rightmost occurrence of `sub` in `s`. */
  ghost predicate IsLastOccurrence(s: string, sub: string, k: int) {
    OccursAt(s, sub, k) && forall j :: k < j ==> !OccursAt(s, sub, j)
  }

  /** `k` is the position of the leftmost occurrence of `sub` in `s`. */
  ghost predicate IsFirstOccurrence(s: string, sub: string, k: int) {
    OccursAt(s, sub, k) && forall j :: 0 <= j < k ==> !OccursAt(s, sub, j)
  }

  /** `s.find(sub, start)` for a non-negative `start`: the leftmost occurrence at or after `start`, or -1. */
  function FindFrom(s: string, sub: string, start: nat): (r: int)
    ensures r == -1 <==> forall k :: start <= k ==> !OccursAt(s, sub, k)
    ensures r != -1 ==> start <= r && OccursAt(s, sub, r)
    ensures r != -1 ==> forall k :: start <= k < r ==> !OccursAt(s, sub, k)
    decreases |s| - start
  {
    if start + |sub| > |s| then -1
    else if s[start..start + |sub|] == sub then assert OccursAt(s, sub, start); start
    else FindFrom(s, sub, start + 1)
  }

  /** Python's normalisation of a `start` argument: negative counts from the end, clamped at 0. */
  function NormStart(start: int, n: nat): (r: nat)
    ensures start >= 0 ==> r == start
    ensures start < 0 && start + n >= 0 ==> r == start + n
    ensures start + n < 0 ==> r == 0
  {
    if start >= 0 then start else if start + n >= 0 then start + n else 0
  }

  /** `s.find(sub, start)` for any integer `start`, as Python computes it. */
  function PyFind(s: string, sub: string, start: int): (r: int)
    ensures r == -1 || (NormStart(start, |s|) <= r && OccursAt(s, sub, r))
  {
    FindFrom(s, sub, NormStart(start, |s|))
  }

  /** `s.find(sub)`. */
  function Find(s: string, sub: string): (r: int)
    ensures r == -1 <==> forall k :: !OccursAt(s, sub, k)
    ensures r != -1 ==> IsFirstOccurrence(s, sub, r)
  {
    FindFrom(s, sub, 0)
  }

  /** `sub in s`. */
  predicate Contains(s: string, sub: string)
    ensures Contains(s, sub) <==> exists k :: OccursAt(s, sub, k)
  {
    Find(s, sub) != -1
  }

  function RFindBelow(s: string, sub: string, end: nat): (r: int)
    ensures r == -1 <==> forall k :: 0 <= k < end ==> !OccursAt(s, sub, k)
    ensures r != -1 ==> 0 <= r < end && OccursAt(s, sub, r)
    ensures r != -1 ==> forall k :: r < k < end ==> !OccursAt(s, sub, k)
    decreases end
  {
    if end == 0 then -1
    else if OccursAt(s, sub, end - 1) then end - 1
    else RFindBelow(s, sub, end - 1)
  }

  /** `s.rfind(sub)`: the rightmost occurrence, or -1. `s.rsplit(sub, 1)` splits here. */
  function RFind(s: string, sub: string): (r: int)
    ensures r == -1 <==> !Contains(s, sub)
    ensures r != -1 ==> IsLastOccurrence(s, sub, r)
  {
    var r := RFindBelow(s, sub, |s| + 1);
    assert forall k :: OccursAt(s, sub, k) ==> k < |s| + 1;
    r
  }

  /** An occurrence found in a prefix of `s` is an occurrence in `s`. */
  lemma OccursInPrefix(s: string, n: nat, sub: string, k: int)
    requires n <= |s| && OccursAt(s[..n], sub, k)
    ensures OccursAt(s, sub, k)
  {
    assert s[..n][k..k + |sub|] == s[k..k + |sub|];
  }

  /** An occurrence found in a suffix of `s` is an occurrence in `s`, shifted. */
  lemma OccursInSuffix(s: string, n: nat, sub: string, k: int)
    requires n <= |s| && OccursAt(s[n..], sub, k)
    ensures OccursAt(s, sub, n + k)
  {
    assert s[n..][k..k + |sub|] == s[n + k..n + k + |sub|];
  }

  /** Slicing a slice is slicing the original at shifted bounds. */
  lemma OccursInSlice(s: string, i: nat, j: nat, sub: string, k: int)
    requires i <= j <= |s| && OccursAt(s[i..j], sub, k)
    ensures OccursAt(s, sub, i + k)
  {
    SliceOfSlice(s, i, j, k, k + |sub|);
  }

  /** An occurrence of `sub` is an occurrence of each of its prefixes. */
  lemma OccursPrefixOf(s: string, sub: string, p: nat, k: int)
    requires OccursAt(s, sub, k) && p <= |sub|
    ensures OccursAt(s, sub[..p], k)
  {
    assert s[k..k + p] == s[k..k + |sub|][..p];
  }

  /** `find` returns the leftmost occurrence. */
  lemma FindIsFirst(s: string, sub: string, k: int)
    requires IsFirstOccurrence(s, sub, k)
    ensures Find(s, sub) == k
  {
    var r := Find(s, sub);
    assert r != -1;
    assert !(r < k) && !(k < r);
  }

  /** `find` from `start` returns the first occurrence at or after `start`. */
  lemma PyFindIsFirstFrom(s: string, sub: string, start: int, k: int)
    requires 0 <= start <= k && OccursAt(s, sub, k)
    requires forall p :: start <= p < k ==> !OccursAt(s, sub, p)
    ensures PyFind(s, sub, start) == k
  {
    var r := FindFrom(s, sub, start);
    assert r != -1;
    assert !(r < k) && !(k < r);
  }

  /** `find` from `start` gives -1 when nothing occurs at or after `start`. */
  lemma PyFindAbsentFrom(s: string, sub: string, start: int)
    requires 0 <= start <= |s|
    requires forall p :: start <= p ==> !OccursAt(s, sub, p)
    ensures PyFind(s, sub, start) == -1
  {
  }

  lemma SliceOfSlice(s: string, i: nat, j: nat, a: nat, b: nat)
    requires i <= j <= |s| && a <= b <= j - i
    ensures s[i..j][a..b] == s[i + a..i + b]
  {
    forall t | 0 <= t < b - a ensures s[i..j][a..b][t] == s[i + a..i + b][t] {
      assert s[i..j][a..b][t] == s[i + a + t];
    }
  }

  /** A slice of a string that does not contain `sub` does not contain it either. */
  lemma NoOccurrenceInSlice(s: string, i: nat, j: nat, sub: string)
    requires i <= j <= |s| && !Contains(s, sub)
    ensures !Contains(s[i..j], sub)
  {
    forall k | 0 <= k && k + |sub| <= j - i ensures !OccursAt(s[i..j], sub, k) {
      SliceOfSlice(s, i, j, k, k + |sub|);
      assert !OccursAt(s, sub, i + k);
    }
  }

  /** An occurrence in the stripped text is an occurrence in the original, shifted by the removed prefix. */
  lemma OccursInStrip(s: string, sub: string, m: int)
    requires OccursAt(Strip(s), sub, m)
    ensures OccursAt(s, sub, LeadingSpace(s) + m)
  {
    OccursInSlice(s, LeadingSpace(s), LeadingSpace(s) + |Strip(s)|, sub, m);
  }

  /** An occurrence in the stripped tail `s[n..]` is an occurrence in `s`. */
  lemma OccursInStrippedTail(s: string, n: nat, sub: string, m: int)
    requires n <= |s| && OccursAt(Strip(s[n..]), sub, m)
    ensures Contains(s, sub)
  {
    var t := s[n..];
    OccursInStrip(t, sub, m);
    OccursInSuffix(s, n, sub, LeadingSpace(t) + m);
  }

  /** Stripping never creates an occurrence. */
  lemma StripKeepsAbsence(s: string, sub: string)
    requires !Contains(s, sub)
    ensures !Contains(Strip(s), sub)
  {
    var r := Strip(s);
    var i := LeadingSpace(s);
    assert r == s[i..i + |r|];
    NoOccurrenceInSlice(s, i, i + |r|, sub);
    assert !Contains(s[i..i + |r|], sub);
  }

  /** The text after the last occurrence of `sub` contains no occurrence of it. */
  lemma NothingAfterLast(s: string, sub: string, k: int)
    requires IsLastOccurrence(s, sub, k) && |sub| > 0
    ensures !Contains(s[k + |sub|..], sub)
  {
    var n := k + |sub|;
    assert s[n..] == s[n..|s|];
    forall j | 0 <= j && j + |sub| <= |s| - n ensures !OccursAt(s[n..|s|], sub, j) {
      SliceOfSlice(s, n, |s|, j, j + |sub|);
      assert !OccursAt(s, sub, n + j);
    }
  }

  /** There is only one last occurrence. */
  lemma LastOccurrenceUnique(s: string, sub: string, k: int, k': int)
    requires IsLastOccurrence(s, sub, k) && IsLastOccurrence(s, sub, k')
    ensures k == k'
  {
  }

  /** A string lacking some character of `sub` cannot contain `sub`. */
  lemma MissingCharNoOccurrence(s: string, sub: string, p: nat)
    requires p < |sub| && sub[p] !in s
    ensures !Contains(s, sub)
  {
    forall k | 0 <= k && k + |sub| <= |s| ensures !OccursAt(s, sub, k) {
      assert s[k..k + |sub|][p] == s[k + p];
    }
  }

  /** No occurrence of `sub` can cover a position holding a character that `sub` lacks. */
  lemma NoOccurrenceOver(s: string, sub: string, k: int, p: int)
    requires OccursAt(s, sub, k) && k <= p < k + |sub|
    ensures s[p] in sub
  {
    assert s[p] == s[k..k + |sub|][p - k];
  }

  // ---------------------------------------------------------------------
  // Slicing
  // ---------------------------------------------------------------------

  /** Python's normalisation of a slice bound: negative counts from the end, then clamp to [0, n]. */
  function Clamp(i: int, n: nat): (r: nat)
    ensures r <= n
    ensures 0 <= i <= n ==> r == i
    ensures i > n ==> r == n
    ensures i < 0 && i + n >= 0 ==> r == i + n
    ensures i + n < 0 ==> r == 0
  {
    if i < 0 then (if i + n < 0 then 0 else i + n) else if i > n then n else i
  }

  /** `s[a:b]` with Python semantics for any integers `a` and `b`. */
  function PySlice(s: string, a: int, b: int): (r: string)
    ensures 0 <= a <= b <= |s| ==> r == s[a..b]
    ensures 0 <= a && b < 0 && a <= |s| + b ==> r == s[a..|s| + b]
    ensures Clamp(a, |s|) >= Clamp(b, |s|) ==> r == []
  {
    var i := Clamp(a, |s|);
    var j := Clamp(b, |s|);
    if i < j then s[i..j] else []
  }

  /** `s[a:]` with Python semantics. */
  function PySliceFrom(s: string, a: int): (r: string)
    ensures 0 <= a <= |s| ==> r == s[a..]
    ensures a > |s| ==> r == []
  {
    PySlice(s, a, |s|)
  }

  // ---------------------------------------------------------------------
  // split and join
  // ---------------------------------------------------------------------

  /** `sep.join(xs)`. */
  function Join(xs: seq<string>, sep: string): string
    decreases |xs|
  {
    if |xs| == 0 then []
    else if |xs| == 1 then xs[0]
    else xs[0] + sep + Join(xs[1..], sep)
  }

  /** A join opens with the first character of its first piece. */
  lemma JoinFirst(xs: seq<string>, sep: string)
    requires |xs| > 0 && xs[0] != []
    ensures Join(xs, sep) != [] && Join(xs, sep)[0] == xs[0][0]
  {
  }

  /** A join ends with the last character of its last piece. */
  lemma {:induction false} JoinLast(xs: seq<string>, sep: string)
    requires |xs| > 0 && xs[|xs| - 1] != []
    ensures var s, x := Join(xs, sep), xs[|xs| - 1]; s != [] && s[|s| - 1] == x[|x| - 1]
    decreases |xs|
  {
    if |xs| > 1 {
      assert xs[1..][|xs[1..]| - 1] == xs[|xs| - 1];
      JoinLast(xs[1..], sep);
    }
  }

  /** Nothing before the first occurrence of `sub` contains `sub`. */
  lemma NoOccurrenceBeforeFirst(s: string, sub: string, k: int)
    requires IsFirstOccurrence(s, sub, k) && |sub| > 0
    ensures !Contains(s[..k], sub)
  {
    forall j | 0 <= j && j + |sub| <= k ensures !OccursAt(s[..k], sub, j) {
      assert s[..k][j..j + |sub|] == s[j..j + |sub|];
      assert !OccursAt(s, sub, j);
    }
  }

  /** Up to one character short of the end of the first occurrence, a text holds no occurrence. */
  lemma NoOccurrenceShortOfFirst(s: string, sub: string, k: int)
    requires IsFirstOccurrence(s, sub, k) && |sub| > 0
    ensures !Contains(s[..k] + sub[..|sub| - 1], sub)
  {
    var t := s[..k] + sub[..|sub| - 1];
    assert sub[..|sub| - 1] == s[k..k + |sub| - 1];
    assert t == s[..k + |sub| - 1];
    forall j | 0 <= j && j + |sub| <= |t| ensures !OccursAt(t, sub, j) {
      assert j < k;
      assert t[j..j + |sub|] == s[j..j + |sub|];
      assert !OccursAt(s, sub, j);
    }
  }

  /**
   `s.split(sep)` for a non-empty `sep`: scanning left to right, cut at each
   leftmost non-overlapping occurrence. The pieces join back to `s` and none
   of them contains `sep`; every cut is at the first occurrence after the
   previous one, so no piece but the last, followed by all of `sep` but its
   last character, already holds `sep`.
   */
  function Split(s: string, sep: string): (r: seq<string>)
    requires |sep| > 0
    ensures |r| >= 1
    ensures Join(r, sep) == s
    ensures forall i :: 0 <= i < |r| ==> !Contains(r[i], sep)
    ensures forall i :: 0 <= i < |r| - 1 ==> !Contains(r[i] + sep[..|sep| - 1], sep)
    decreases |s|
  {
    var k := Find(s, sep);
    if k == -1 then [s]
    else
      var head := s[..k];
      var rest := Split(s[k + |sep|..], sep);
      NoOccurrenceBeforeFirst(s, sep, k);
      NoOccurrenceShortOfFirst(s, sep, k);
      assert s == head + sep + s[k + |sep|..];
      [head] + rest
  }

  /** `s.split(sep, 1)`: cut at the leftmost occurrence only; one piece when `sep` is absent. */
  function SplitOnce(s: string, sep: string): (r: seq<string>)
    requires |sep| > 0
    ensures !Contains(s, sep) ==> r == [s]
    ensures Contains(s, sep) ==> |r| == 2
    ensures Contains(s, sep) ==>
      forall k :: IsFirstOccurrence(s, sep, k) ==> r[0] == s[..k] && r[1] == s[k + |sep|..]
  {
    var k := Find(s, sep);
    if k == -1 then [s] else [s[..k], s[k + |sep|..]]
  }

  /** `s.rsplit(sep, 1)`: cut at the rightmost occurrence only; one piece when `sep` is absent. */
  function RSplitOnce(s: string, sep: string): (r: seq<string>)
    requires |sep| > 0
    ensures !Contains(s, sep) ==> r == [s]
    ensures Contains(s, sep) ==> |r| == 2
    ensures Contains(s, sep) ==>
      forall k :: IsLastOccurrence(s, sep, k) ==> r[0] == s[..k] && r[1] == s[k + |sep|..]
  {
    var k := RFind(s, sep);
    if k == -1 then [s] else [s[..k], s[k + |sep|..]]
  }

  /** `sep` consists of one repeated character (a rule like "====" or a single "\n"). */
  predicate IsRun(sep: string) {
    forall k :: 0 <= k < |sep| ==> sep[k] == sep[0]
  }

  /** `a` can be followed by `sep` without creating an earlier occurrence of `sep`. */
  predicate CleanPiece(a: string, sep: string)
    requires |sep| > 0
  {
    !Contains(a, sep) && (a == [] || a[|a| - 1] != sep[0])
  }

  /** For a run separator, the first occurrence in `a + sep + b` is the one placed after `a`. */
  lemma FindAfterCleanPiece(a: string, sep: string, b: string)
    requires |sep| > 0 && IsRun(sep) && CleanPiece(a, sep)
    ensures Find(a + sep + b, sep) == |a|
  {
    var s := a + sep + b;
    assert s[|a|..|a| + |sep|] == sep;
    forall k | 0 <= k < |a| ensures !OccursAt(s, sep, k) {
      if k + |sep| <= |a| {
        assert s[k..k + |sep|] == a[k..k + |sep|];
        assert !OccursAt(a, sep, k);
      } else {
        assert s[k..k + |sep|][|a| - 1 - k] == a[|a| - 1];
        assert s[k..k + |sep|][|a| - 1 - k] != sep[|a| - 1 - k];
      }
    }
    assert OccursAt(s, sep, |a|);
  }

  /** One step of `split`: cut at the leftmost occurrence and split the rest. */
  lemma SplitStep(s: string, sep: string)
    requires |sep| > 0 && Find(s, sep) != -1
    ensures Split(s, sep) == [s[..Find(s, sep)]] + Split(s[Find(s, sep) + |sep|..], sep)
  {
  }

  /** With a single-character separator, a piece free of it is always clean. */
  lemma SingleCharClean(a: string, sep: string)
    requires |sep| == 1 && !Contains(a, sep)
    ensures CleanPiece(a, sep)
  {
    if a != [] && a[|a| - 1] == sep[0] {
      assert a[|a| - 1..|a|] == sep;
      assert OccursAt(a, sep, |a| - 1);
    }
  }

  /** Splitting a join of clean pieces on a run separator gives the pieces back. */
  lemma {:induction false} SplitOfJoin(xs: seq<string>, sep: string)
    requires |sep| > 0 && IsRun(sep) && |xs| >= 1
    requires forall i :: 0 <= i < |xs| ==> CleanPiece(xs[i], sep)
    ensures Split(Join(xs, sep), sep) == xs
    decreases |xs|
  {
    if |xs| == 1 {
      assert Join(xs, sep) == xs[0];
    } else {
      var rest := Join(xs[1..], sep);
      assert Join(xs, sep) == xs[0] + sep + rest;
      FindAfterCleanPiece(xs[0], sep, rest);
      var s := xs[0] + sep + rest;
      SplitStep(s, sep);
      assert s[..|xs[0]|] == xs[0];
      assert s[|xs[0]| + |sep|..] == rest;
      CleanTail(xs, sep);
      SplitOfJoin(xs[1..], sep);
      HeadTail(xs);
    }
  }

  lemma CleanTail(xs: seq<string>, sep: string)
    requires |sep| > 0 && |xs| > 0 && forall i :: 0 <= i < |xs| ==> CleanPiece(xs[i], sep)
    ensures forall i :: 0 <= i < |xs[1..]| ==> CleanPiece(xs[1..][i], sep)
  {
    forall i | 0 <= i < |xs[1..]| ensures CleanPiece(xs[1..][i], sep) {
      assert xs[1..][i] == xs[i + 1];
    }
  }

  // ---------------------------------------------------------------------
  // replace
  // ---------------------------------------------------------------------

  /** `s.replace(c, t)` for a one-character pattern: each `c` becomes `t`, everything else is kept. */
  function ReplaceChar(s: string, c: char, t: string): (r: string)
    ensures |s| == 0 ==> r == []
    decreases |s|
  {
    if |s| == 0 then []
    else (if s[0] == c then t else [s[0]]) + ReplaceChar(s[1..], c, t)
  }

  /** `replace` works character by character, so it distributes over concatenation. */
  lemma {:induction false} ReplaceCharConcat(a: string, b: string, c: char, t: string)
    ensures ReplaceChar(a + b, c, t) == ReplaceChar(a, c, t) + ReplaceChar(b, c, t)
    decreases |a|
  {
    if |a| == 0 {
      assert a + b == b;
    } else {
      assert (a + b)[0] == a[0];
      assert (a + b)[1..] == a[1..] + b;
      ReplaceCharConcat(a[1..], b, c, t);
    }
  }

  /** Replacing a character that does not occur changes nothing. */
  lemma {:induction false} ReplaceCharAbsent(s: string, c: char, t: string)
    requires c !in s
    ensures ReplaceChar(s, c, t) == s
    decreases |s|
  {
    if |s| > 0 {
      assert c !in s[1..];
      ReplaceCharAbsent(s[1..], c, t);
      assert s == [s[0]] + s[1..];
    }
  }
}

=== FILE: seen_store.dfy ===
/**
 The pure part of the seen-job store: the order-preserving dedupe applied to
 collected links (`list(dict.fromkeys(...))`), the filter that keeps links whose
 URL key has not been seen, and marking the URL keys of processed links as seen.
 The store is a `set<string>` value passed in and returned; reading and writing
 the JSON file is not part of this model.
 */
module SeenStore {
  import opened PyStr
  import opened LinkKey

  ghost predicate NoDuplicates(xs: seq<string>) {
    forall i, j :: 0 <= i < j < |xs| ==> xs[i] != xs[j]
  }

  /** The position of the first occurrence of `x` in `xs`. */
  function FirstIndex(xs: seq<string>, x: string): (r: nat)
    requires x in xs
    ensures r < |xs| && xs[r] == x && x !in xs[..r]
  {
    if xs[0] == x then 0
    else
      var r' := FirstIndex(xs[1..], x);
      assert xs[..1 + r'] == [xs[0]] + xs[1..][..r'];
      1 + r'
  }

  /** Any position holding `x` with no earlier `x` is the first index. */
  lemma FirstIndexUnique(xs: seq<string>, x: string, p: nat)
    requires p < |xs| && xs[p] == x && x !in xs[..p]
    ensures FirstIndex(xs, x) == p
  {
    var f := FirstIndex(xs, x);
    assert forall i :: 0 <= i < p ==> xs[..p][i] == xs[i];
    assert forall i :: 0 <= i < f ==> xs[..f][i] == xs[i];
  }

  /** Extending a list does not move the first occurrence of an element already present. */
  lemma FirstIndexOfPrefix(xs: seq<string>, n: nat, x: string)
    requires n <= |xs| && x in xs[..n]
    ensures FirstIndex(xs, x) == FirstIndex(xs[..n], x)
  {
    var f := FirstIndex(xs[..n], x);
    assert xs[..n][..f] == xs[..f];
    FirstIndexUnique(xs, x, f);
  }

  /**
   `list(dict.fromkeys(xs))`: each distinct element once, at the place of its
   first occurrence. The three postconditions determine the result uniquely:
   no repeats, the same elements, and the order of first occurrences.
   */
  function Dedupe(xs: seq<string>): (r: seq<string>)
    ensures NoDuplicates(r)
    ensures forall x :: x in r <==> x in xs
    ensures forall i, j :: 0 <= i < j < |r| ==> FirstIndex(xs, r[i]) < FirstIndex(xs, r[j])
    decreases |xs|
  {
    if |xs| == 0 then []
    else
      var n := |xs| - 1;
      var init := xs[..n];
      var r := Dedupe(init);
      var last := xs[n];
      assert xs == init + [last];
      forall x | x in r ensures FirstIndex(xs, x) == FirstIndex(init, x) {
        FirstIndexOfPrefix(xs, n, x);
      }
      if last in init then r
      else
        FirstIndexUnique(xs, last, n);
        r + [last]
  }

  /** Deduplicating a list that has no repeats returns it unchanged. */
  lemma {:induction false} DedupeOfDistinct(xs: seq<string>)
    requires NoDuplicates(xs)
    ensures Dedupe(xs) == xs
    decreases |xs|
  {
    if |xs| > 0 {
      var n := |xs| - 1;
      DistinctInit(xs);
      DedupeOfDistinct(xs[..n]);
      DedupeSnoc(xs);
      InitLast(xs);
    }
  }

  /** Without repeats, the list minus its last element has none either, and lacks that element. */
  lemma DistinctInit(xs: seq<string>)
    requires NoDuplicates(xs) && |xs| > 0
    ensures NoDuplicates(xs[..|xs| - 1]) && xs[|xs| - 1] !in xs[..|xs| - 1]
  {
    var n := |xs| - 1;
    var init := xs[..n];
    forall i, j | 0 <= i < j < n ensures init[i] != init[j] {
      assert init[i] == xs[i] && init[j] == xs[j];
    }
    forall i | 0 <= i < n ensures init[i] != xs[n] {
      assert init[i] == xs[i];
    }
  }

  /** A new last element is appended to the dedupe of the rest. */
  lemma DedupeSnoc(xs: seq<string>)
    requires |xs| > 0 && xs[|xs| - 1] !in xs[..|xs| - 1]
    ensures Dedupe(xs) == Dedupe(xs[..|xs| - 1]) + [xs[|xs| - 1]]
  {
  }

  /** The dedupe is idempotent. */
  lemma DedupeIdempotent(xs: seq<string>)
    ensures Dedupe(Dedupe(xs)) == Dedupe(xs)
  {
    DedupeOfDistinct(Dedupe(xs));
  }

  /**
   The dict-insertion loop behind `dict.fromkeys`: a key set and the insertion
   order, one element at a time. It computes `Dedupe`.
   */
  method DedupeInOrder(xs: seq<string>) returns (r: seq<string>)
    ensures r == Dedupe(xs)
  {
    var keys: set<string> := {};
    r := [];
    var i := 0;
    while i < |xs|
      invariant 0 <= i <= |xs|
      invariant r == Dedupe(xs[..i])
      invariant forall x :: x in keys <==> x in xs[..i]
    {
      assert xs[..i + 1][..i] == xs[..i];
      if xs[i] !in keys {
        r := r + [xs[i]];
        keys := keys + {xs[i]};
      }
      i := i + 1;
    }
    assert xs[..i] == xs;
  }

  /** The URL keys of a list of links. */
  function Keys(links: seq<string>): set<string> {
    set l | l in links :: UrlFromLink(l)
  }

  /**
   `[lnk for lnk in links if url_from_link(lnk) not in seen]`: exactly the links
   whose key is unseen, in their original order (see `FilterNewAppend`).
   */
  function FilterNew(links: seq<string>, seen: set<string>): (r: seq<string>)
    ensures forall l :: l in r <==> l in links && UrlFromLink(l) !in seen
    ensures |r| <= |links|
    decreases |links|
  {
    if |links| == 0 then []
    else Pass(links[0], seen) + FilterNew(links[1..], seen)
  }

  /** One link through the filter: kept exactly when its key is unseen. */
  function Pass(l: string, seen: set<string>): seq<string> {
    if UrlFromLink(l) in seen then [] else [l]
  }

  lemma FilterNewUnfold(links: seq<string>, seen: set<string>)
    requires |links| > 0
    ensures FilterNew(links, seen) == Pass(links[0], seen) + FilterNew(links[1..], seen)
  {
  }

  /** The filter works element by element, so it keeps the input order. */
  lemma {:induction false} FilterNewAppend(a: seq<string>, b: seq<string>, seen: set<string>)
    ensures FilterNew(a + b, seen) == FilterNew(a, seen) + FilterNew(b, seen)
    decreases |a|
  {
    if |a| == 0 {
      assert a + b == b;
    } else {
      assert (a + b)[0] == a[0];
      assert (a + b)[1..] == a[1..] + b;
      FilterNewUnfold(a + b, seen);
      FilterNewUnfold(a, seen);
      FilterNewAppend(a[1..], b, seen);
      AppendAssoc(Pass(a[0], seen), FilterNew(a[1..], seen), FilterNew(b, seen));
    }
  }

  /** The keys of a non-empty list: the first link's key and the keys of the rest. */
  lemma KeysCons(links: seq<string>)
    requires |links| > 0
    ensures Keys(links) == {UrlFromLink(links[0])} + Keys(links[1..])
  {
    assert links == [links[0]] + links[1..];
  }

  /**
   `for lnk in new_links: seen.add(url_from_link(lnk))`: one key at a time. The
   result is the old store together with the keys of the processed links.
   */
  function MarkSeen(seen: set<string>, links: seq<string>): (r: set<string>)
    ensures r == seen + Keys(links)
    decreases |links|
  {
    if |links| == 0 then seen
    else
      KeysCons(links);
      MarkSeen(seen + {UrlFromLink(links[0])}, links[1..])
  }

  /** The three ways the dedupe step of a run can end. */
  datatype Step =
    | NoAlerts                                           // nothing was collected
    | NoNew                                              // every collected link was seen before
    | Fresh(newLinks: seq<string>, marked: set<string>)  // unseen links, and the store after marking them

  /** The filter-then-mark transition shared by both entry points of the program. */
  function FilterStep(links: seq<string>, seen: set<string>): (r: Step)
    ensures r.NoAlerts? <==> links == []
    ensures r.NoNew? <==> links != [] && forall l :: l in links ==> UrlFromLink(l) in seen
    ensures r.Fresh? ==> r.newLinks == FilterNew(links, seen) && r.newLinks != []
    ensures r.Fresh? ==> r.marked == seen + Keys(r.newLinks)
  {
    if links == [] then NoAlerts
    else
      var newLinks := FilterNew(links, seen);
      if newLinks == [] then NoNew
      else
        assert newLinks[0] in newLinks;
        Fresh(newLinks, MarkSeen(seen, newLinks))
  }

  /** After a fresh step the store holds the key of every collected link, seen or not. */
  lemma FreshMarksEveryLink(links: seq<string>, seen: set<string>)
    requires FilterStep(links, seen).Fresh?
    ensures FilterStep(links, seen).marked == seen + Keys(links)
  {
    var s := FilterStep(links, seen);
    forall u | u in Keys(links) && u !in seen ensures u in Keys(s.newLinks) {
      var l :| l in links && UrlFromLink(l) == u;
      assert l in s.newLinks;
    }
  }

  /** Running the step again on the same links with the marked store finds nothing new. */
  lemma StepIdempotent(links: seq<string>, seen: set<string>)
    requires FilterStep(links, seen).Fresh?
    ensures FilterStep(links, FilterStep(links, seen).marked) == NoNew
  {
    var marked := FilterStep(links, seen).marked;
    FreshMarksEveryLink(links, seen);
    forall l | l in links ensures UrlFromLink(l) in marked {
      assert UrlFromLink(l) in Keys(links);
    }
  }

  /**
   A job announced again under different anchor text is not new once its URL
   has been marked.
   */
  lemma ReannouncedLinkIsSeen(text1: string, text2: string, href: string, seen: set<string>)
    requires NoSpace(href)
    ensures FilterNew([FormatLink(text2, href)], MarkSeen(seen, [FormatLink(text1, href)])) == []
  {
    UrlOfFormattedLink(text1, href);
    UrlOfFormattedLink(text2, href);
    assert UrlFromLink(FormatLink(text1, href)) in Keys([FormatLink(text1, href)]);
  }

  /** Two unseen links that share a URL both pass the filter: it compares against the store only. */
  lemma SharedUrlBothPass(text1: string, text2: string, href: string, seen: set<string>)
    requires NoSpace(href) && href !in seen
    ensures FilterNew([FormatLink(text1, href), FormatLink(text2, href)], seen)
         == [FormatLink(text1, href), FormatLink(text2, href)]
  {
    UrlOfFormattedLink(text1, href);
    UrlOfFormattedLink(text2, href);
    BothUnseenPass(FormatLink(text1, href), FormatLink(text2, href), seen);
  }

  lemma BothUnseenPass(l1: string, l2: string, seen: set<string>)
    requires UrlFromLink(l1) !in seen && UrlFromLink(l2) !in seen
    ensures FilterNew([l1, l2], seen) == [l1, l2]
  {
    FilterNewOne(l1, seen);
    FilterNewOne(l2, seen);
    FilterNewAppend([l1], [l2], seen);
    assert [l1] + [l2] == [l1, l2];
  }

  /** A single link passes the filter exactly when its key is unseen. */
  lemma FilterNewOne(l: string, seen: set<string>)
    ensures FilterNew([l], seen) == if UrlFromLink(l) in seen then [] else [l]
  {
    assert [l][1..] == [];
    FilterNewUnfold([l], seen);
  }
}

=== FILE: wrappers.dfy ===
/** Small failure-carrying datatypes used across the model. */
module Wrappers {

  /** A value that may be absent (Python's `None`). */
  datatype Option<+T> = None | Some(value: T)

  /** The outcome of an operation that can raise: a value, or the error it raised. */
  datatype Result<+T, +E> = Ok(value: T) | Err(error: E)
}
